=== FILE: README.md ===
# A verified model of the Angular to-do application's list, form and account logic

This project models, in Dafny, the logic of the Angular to-do application:

- **The local list service** (`TodoStore`): an ordered list of `{id, text, completed}` records. It is mirrored into the storage slot `todos` after each change. Its operations are add (the id is a clock reading plus a session counter), toggle, delete and clear-completed.
- **The list page** (`TodoView`): the conjunctive category, priority and search filter; the multi-select toggles where `'All'` clears the selection; quick add with its default category and priority; the counters; the edit dialog state; and the colour and category lookups.
- **The add/edit form** (`TodoFormView`):
  - comma-separated tag parsing and the `', '` join it inverts;
  - the priority lookup with its fallback;
  - the add-or-update branch of a submit;
  - form reset and cancel.
- **The local account service** (`Auth`, `Hashing`):
  - register, login, logout, update, change-password and delete over a table of users kept in storage, each with its checks in the source's order and its fixed error strings;
  - the signed-in session;
  - the demonstration password hash. It is a multiply-by-31 fold wrapped to signed 32 bits and printed in base 36.
- **The earlier list page** (`LegacyView`): it drives the local list service directly.

Shared pieces:
- `Seqs` holds filtering and counting.
- `Text` holds the JavaScript string operations used: `trim`, ASCII `toLowerCase`, `includes`, one-character `split`, `join` and `indexOf`.
- `Models` holds the records.
- `Storage` models `localStorage` as a map from key to stored value.
- `StoreApi` stands in for the richer list service that the newer components call. That service's code is not part of this model. `StoreApi` records each request made to it and promises nothing about the list.

Classes model the objects whose fields the source updates: the two services, the three components, and storage. Each method's `ensures` gives the new state. Where an operation is also specified as a function (`Toggled`, `Deleted`, `Cleared`, `Visible`, `ToggleSelection`, `Submission`, the `Auth` step functions), the method is proved to agree with it, and the lemmas state the properties of that function.

Two consequences of the code are worth stating:
- The form's validators (`src/app/components/todo-form/todo-form.ts:22`) reject only the empty string. So a text of blanks passes and is submitted trimmed to the empty text. `TodoFormView.BlankTextIsAdded` states this.
- `addTodo` makes an id from `Date.now()` plus a counter that restarts at 0 with every new service instance (`src/app/service/todo.ts:36-44`). So the ids of one session are distinct when the clock does not run backwards (`TodoStore.AssignedIdsIncrease`). Nothing makes them distinct across page reloads.

## Model

| member | source | states |
|---|---|---|
| Models.StoredUser.Public | src/app/service/auth.ts:106 | a signed-in user is the stored record without its hash: same id, email and name |
| Seqs.FirstIndex | src/app/service/auth.ts:144 | `findIndex`: the first position whose element satisfies the test, or -1 exactly when none does |
| Text.TrimIsSlice | src/app/components/todo/todo.ts:283-287 | `Trim` (`trim`) gives a contiguous piece of the input that starts and ends with a non-blank character |
| Text.TrimEmptyIffBlank | src/app/components/todo/todo.ts:283 | `!s.trim()` holds exactly when every character of `s` is whitespace |
| Text.TrimDropsPrefix | src/app/components/todo-form/todo-form.ts:63 | trimming removes whitespace put in front of a trimmed non-empty text, as after `', '` |
| Text.ToLower | src/app/components/todo/todo.ts:275-276 | `toLowerCase`: same length, each character lower-cased |
| Text.ContainsIffOccurs | src/app/components/todo/todo.ts:276 | `Contains` (`includes`) holds exactly when the needle occurs at some offset |
| Text.IndexOf | src/app/components/todo/todo.ts:331 | `indexOf`: -1 exactly when absent, otherwise the first position of the element |
| Text.Split | src/app/components/todo-form/todo-form.ts:63 | `split(',')`: at least one piece, none containing the separator |
| Text.SplitNoSeparator | src/app/components/todo-form/todo-form.ts:63 | a text without the separator splits into itself alone |
| Text.SplitAtSeparator | src/app/components/todo-form/todo-form.ts:63 | splitting `a + sep + b` gives `a` followed by the pieces of `b` |
| TodoStore.IndexOfId | src/app/service/todo.ts:47 | the position of the record `find` returns: the first holding the id, or -1 exactly when no record has it |
| TodoStore.Toggled | src/app/service/todo.ts:46-52 | same length; only the first record with the id has its flag flipped; an absent id leaves the list as it was |
| TodoStore.AssignedIds | src/app/service/todo.ts:38 | the k-th add of a session gets the id clock + k |
| TodoStore.ToggleTwice | src/app/service/todo.ts:46-52 | toggling an id twice restores the list |
| TodoStore.DeletedKeepsOthers | src/app/service/todo.ts:54-57 | `Deleted`, the list `deleteTodo` keeps, holds exactly the records with another id, as an order-preserving subsequence, and its length drops by the number of records with that id |
| TodoStore.DeleteAbsentNoOp | src/app/service/todo.ts:54-57 | deleting an absent id changes nothing |
| TodoStore.DeleteIdempotent | src/app/service/todo.ts:54-57 | deleting twice is deleting once |
| TodoStore.ClearedKeepsActive | src/app/service/todo.ts:59-62 | `Cleared`, the list `clearCompleted` keeps, holds exactly the active records, in order, and as many as there are active ones |
| TodoStore.ClearNoneCompletedNoOp | src/app/service/todo.ts:59-62 | with nothing completed, clearing changes nothing |
| TodoStore.ClearIdempotent | src/app/service/todo.ts:59-62 | clearing twice is clearing once |
| TodoStore.AssignedIdsIncrease | src/app/service/todo.ts:36-44 | with a clock that never runs backwards, the ids of one session strictly increase, so they are distinct |
| TodoStore.TodoService.constructor | src/app/service/todo.ts:13-15 | the service starts from the stored list (empty when there is none), with the counter at 0 and storage in step |
| TodoStore.TodoService.LoadTodos | src/app/service/todo.ts:17-24 | the stored list replaces the in-memory one when the slot exists |
| TodoStore.TodoService.SaveTodos | src/app/service/todo.ts:26-29 | the slot `todos` is set to the current list and nothing else changes |
| TodoStore.TodoService.AddTodo | src/app/service/todo.ts:36-44 | exactly one active record with the text and id clock + counter is appended; earlier records are untouched; the counter and storage follow |
| TodoStore.TodoService.ToggleTodo | src/app/service/todo.ts:46-52 | the list becomes `Toggled`; storage is written only when the id was found |
| TodoStore.TodoService.DeleteTodo | src/app/service/todo.ts:54-57 | the list becomes `Deleted` and is always saved |
| TodoStore.TodoService.ClearCompleted | src/app/service/todo.ts:59-62 | the list becomes `Cleared` and is always saved |
| TodoStore.Reload | src/app/service/todo.ts:17-29 | a new service over the same storage loads exactly the list the old one holds |
| TodoView.VisibleIsConjunctiveSelection | src/app/components/todo/todo.ts:260-279 | `Visible`, the list `applyFilters` leaves, is an order-preserving subsequence; an item is in it iff its category is selected or none is, its priority is selected or none is, and the search term is blank or its lower-cased text contains the lower-cased untrimmed term |
| TodoView.VisibleUnfiltered | src/app/components/todo/todo.ts:264-277 | with nothing selected and a blank term the whole list is shown |
| TodoView.ToggleSelection | src/app/components/todo/todo.ts:323-339 | picking `'All'` clears the selection; picking an unselected name appends it; picking a selected name removes one occurrence of it and nothing else (one shorter, same multiset less that name) |
| TodoView.ToggleSelectionTwice | src/app/components/todo/todo.ts:323-339 | picking an unselected name twice restores the selection |
| TodoView.ToggleSelectionFlips | src/app/components/todo/todo.ts:323-339 | `ToggleSelection` (the `indexOf`/`splice`/`push` step) flips the picked name's membership, keeps all other names, and keeps a duplicate-free selection duplicate-free |
| TodoView.FindById | src/app/components/todo/todo.ts:224 | none exactly when no item has the id; otherwise the first item with that id, as `find` returns |
| TodoView.FindByIdFindsItem | src/app/components/todo/todo.ts:222-225 | with unique ids, looking up an item's id finds that item |
| TodoView.PriorityColor | src/app/components/todo/todo.ts:392-395 | absent or empty value gives `''`; a value some priority has gives the colour of the first priority with it; a non-empty colour always belongs to a priority with that value |
| TodoView.PriorityColorUnknown | src/app/components/todo/todo.ts:392-395 | a value no priority has gives `''` |
| TodoView.PriorityColorKnown | src/app/components/todo/todo.ts:392-395 | a non-empty value first carried by priority `k` gives priority `k`'s colour |
| TodoView.CategoryName | src/app/components/todo/todo.ts:387-390 | `''` exactly for an absent or empty name, else the name |
| TodoView.TodoComponent.constructor | src/app/components/todo/todo.ts:241-250 | categories and priorities come from the service, nothing is selected, the dialog is closed, and the whole list is shown |
| TodoView.TodoComponent.CountsAddUp | src/app/components/todo/todo.ts:231-239 | the computeds `ActiveTodosCount`, `CompletedTodosCount` and `TotalTodosCount` satisfy active + completed = total |
| TodoView.TodoComponent.EditingTodo | src/app/components/todo/todo.ts:222-225 | nothing for no id or id 0; otherwise the first item with that id, found whenever one exists |
| TodoView.TodoComponent.GetPriorityColor | src/app/components/todo/todo.ts:392-395 | over the page's priorities: `''` for an absent or empty value, else the colour of the first priority with that value when there is one |
| TodoView.TodoComponent.ApplyFilters | src/app/components/todo/todo.ts:260-279 | the three filter stages in turn leave exactly `Visible` of the list and selections |
| TodoView.TodoComponent.AddTodo | src/app/components/todo/todo.ts:281-301 | blank text: no request and the input is kept; otherwise one add request with the trimmed non-empty text, `DefaultCategory` (first category name or `'Work'`), `DefaultPriority` (`priorities[1]` else `priorities[0]` else a Medium literal), no due date, no tags and not completed, then the input is cleared |
| TodoView.TodoComponent.ToggleTodo | src/app/components/todo/todo.ts:311-313 | one toggle request for that id; the service's categories and priorities are unchanged |
| TodoView.TodoComponent.DeleteTodo | src/app/components/todo/todo.ts:315-317 | one delete request for that id; the service's categories and priorities are unchanged |
| TodoView.TodoComponent.ClearCompleted | src/app/components/todo/todo.ts:319-321 | one clear request; the service's categories and priorities are unchanged |
| TodoView.TodoComponent.OnCategorySelected | src/app/components/todo/todo.ts:323-339 | the category selection becomes `ToggleSelection` of the old one, and the shown list is refiltered |
| TodoView.TodoComponent.OnPrioritySelected | src/app/components/todo/todo.ts:341-357 | the same rules for the priority selection |
| TodoView.TodoComponent.OnSearchChange | src/app/components/todo/todo.ts:359-361 | the search term is set |
| TodoView.TodoComponent.OnFormSubmitted | src/app/components/todo/todo.ts:363-366 | the list is refiltered and the dialog is closed with no item being edited |
| TodoView.TodoComponent.EditTodo | src/app/components/todo/todo.ts:368-371 | the dialog is open on that item's id |
| TodoView.TodoComponent.OpenAddTodoDialog | src/app/components/todo/todo.ts:373-376 | the dialog is open with no item being edited |
| TodoView.TodoComponent.CloseFormDialog | src/app/components/todo/todo.ts:378-381 | the dialog is closed with no item being edited |
| TodoView.TodoComponent.CancelEdit | src/app/components/todo/todo.ts:307-309 | the dialog is closed with no item being edited |
| TodoFormView.ParseTagsClean | src/app/components/todo-form/todo-form.ts:63 | every tag `ParseTags` (split at commas, trim, drop empties) yields is non-empty, trimmed and comma-free |
| TodoFormView.TagsRoundTrip | src/app/components/todo-form/todo-form.ts:51-63 | `ParseTags` of the `', '` `Join` of clean tags gives the same tags; in particular `''` parses to no tags |
| TodoFormView.FirstWithValue | src/app/components/todo-form/todo-form.ts:70 | none exactly when no priority has the value; otherwise the first priority with it, as `find` returns |
| TodoFormView.FindPriority | src/app/components/todo-form/todo-form.ts:80 | none only for an empty list; the first priority with the chosen value when one exists, else the first priority of all |
| TodoFormView.FindListedPriority | src/app/components/todo-form/todo-form.ts:70 | with distinct values, choosing a listed priority's value finds that priority |
| TodoFormView.DueDate | src/app/components/todo-form/todo-form.ts:71 | a due date is sent exactly when the field is non-empty, and it is the field |
| TodoFormView.Submission | src/app/components/todo-form/todo-form.ts:62-86 | an update exactly when editing an item, carrying its id and a patch of the form's category, the priority found for the form's priority value, the due date (empty becomes none) and the parsed tags, and no text; otherwise an add of the trimmed text with those same fields, not completed |
| TodoFormView.SubmittedTagsClean | src/app/components/todo-form/todo-form.ts:63 | every tag a submit sends is clean |
| TodoFormView.EditRoundTrip | src/app/components/todo-form/todo-form.ts:42-86 | submitting `EditValue` of an item (the controls `ngOnInit` fills) untouched asks for an update that keeps its category, priority, due date and tags |
| TodoFormView.BlankTextIsAdded | src/app/components/todo-form/todo-form.ts:57-84 | a text of blanks passes validation and is added as the empty text |
| TodoFormView.TodoForm.constructor | src/app/components/todo-form/todo-form.ts:21-29 | controls at text `''`, category `'Work'`, priority `'Medium'`, empty due date and tags, text enabled, not editing |
| TodoFormView.TodoForm.NgOnInit | src/app/components/todo-form/todo-form.ts:42-55 | with an item: the controls show its fields (tags joined with `', '`), the text is locked, edit mode; without: nothing changes |
| TodoFormView.TodoForm.OnSubmit | src/app/components/todo-form/todo-form.ts:57-89 | `FormInvalid` (text enabled and empty): no request, no output, form unchanged; valid: exactly one `Submission` request, the matching output, then the reset form |
| TodoFormView.TodoForm.ResetForm | src/app/components/todo-form/todo-form.ts:91-95 | the controls go back to `ResetValue`, text enabled, not editing |
| TodoFormView.TodoForm.OnCancel | src/app/components/todo-form/todo-form.ts:97-100 | the reset form and one `cancelEdit` output |
| Hashing.ToInt32 | src/app/service/auth.ts:71 | the result is a signed 32-bit value congruent to the input modulo 2^32 |
| Hashing.HashFold | src/app/service/auth.ts:64-74 | the running hash stays in signed 32-bit range |
| Hashing.ShiftStep | src/app/service/auth.ts:70-71 | `(h << 5) - h + c` then `h & h` is the wrapped `31 * h + c` |
| Hashing.Digits | src/app/service/auth.ts:73 | base-36 digits: at least one, no sign, last digit is the value modulo 36 |
| Hashing.Base36 | src/app/service/auth.ts:73 | a leading `-` exactly for negative numbers |
| Hashing.Base36Injective | src/app/service/auth.ts:73 | different numbers print differently |
| Hashing.PasswordHashMatch | src/app/service/auth.ts:64-74 | two `PasswordHash` values (fold, then base 36) are equal iff the 32-bit folds are |
| Hashing.HashFoldExtend | src/app/service/auth.ts:67-72 | equal hashes stay equal under a common continuation |
| Hashing.PairCollision | src/app/service/auth.ts:67-72 | the tails "Aa" and "BB" lead to the same hash from any state |
| Hashing.HashCollision | src/app/service/auth.ts:64-74 | the distinct passwords "AaAaAa" and "BBBBBB" have the same stored hash |
| Auth.IndexOfUser | src/app/service/auth.ts:144 | the first index with the id, or -1 exactly when none has it |
| Auth.FindLogin | src/app/service/auth.ts:116-120 | none exactly when no user satisfies `LoginMatches` (email equal without regard to case, hash equal); otherwise the first user that does, as `find` returns |
| Auth.RegisterStep | src/app/service/auth.ts:76-110 | success iff passwords match, are at least 6 long and `EmailTaken` (a case-insensitive email match) is false; failures in that order with their messages and no state change; success appends one user with the password's hash and signs it in |
| Auth.LoginStep | src/app/service/auth.ts:112-130 | success iff some user's email and hash match; failure gives "Invalid email or password" and changes nothing; success leaves the table and signs in the first user whose email and hash match |
| Auth.LogoutStep | src/app/service/auth.ts:132-135 | the session ends and the table is untouched |
| Auth.Updated | src/app/service/auth.ts:162-166 | name and email are replaced only when given; id, hash and creation time are kept |
| Auth.UpdateAccountStep | src/app/service/auth.ts:137-176 | "Not authenticated", "User not found", then "Email already in use" for a case-insensitive clash with another id, each leaving the state; success rewrites only the signed-in record and the session |
| Auth.ChangePasswordStep | src/app/service/auth.ts:178-212 | the five checks in order with their messages ("Not authenticated", "New passwords do not match", "Password must be at least 6 characters", "User not found", "Current password is incorrect"), each leaving the state; success changes only that user's hash, to the new password's, and keeps the session |
| Auth.DeleteAccountStep | src/app/service/auth.ts:214-232 | "Not authenticated" without a session; otherwise exactly the users with another id remain, in their original order (an order-preserving subsequence, shorter by the number of users with that id), and the session ends |
| Auth.RegisterKeepsConsistent | src/app/service/auth.ts:76-110 | with a fresh id, register keeps ids and emails distinct and the session a stored user |
| Auth.LoginKeepsConsistent | src/app/service/auth.ts:112-130 | login keeps the table consistent |
| Auth.LogoutKeepsConsistent | src/app/service/auth.ts:132-135 | logout keeps the table consistent |
| Auth.UpdateAccountKeepsConsistent | src/app/service/auth.ts:150-169 | the email check keeps emails distinct without regard to case |
| Auth.ChangePasswordKeepsConsistent | src/app/service/auth.ts:178-212 | changing a password keeps the table consistent |
| Auth.DeleteAccountKeepsConsistent | src/app/service/auth.ts:224-226 | deleting keeps the table consistent |
| Auth.RegisterThenLogin | src/app/service/auth.ts:76-130 | after registering, login with the same email and password succeeds and signs in the new user |
| Auth.ChangePasswordThenLogin | src/app/service/auth.ts:202-208 | after a password change the user can sign in with the new password |
| Auth.CollidingPasswordLogsIn | src/app/service/auth.ts:112-120 | an account registered with "AaAaAa" accepts "BBBBBB" |
| Auth.AuthService.constructor | src/app/service/auth.ts:25-27 | the service starts with the stored session |
| Auth.AuthService.IsAuthenticated | src/app/service/auth.ts:21 | true exactly when there is a session |
| Auth.AuthService.LoadCurrentUser | src/app/service/auth.ts:29-37 | the stored session is taken when the slot exists |
| Auth.AuthService.SaveCurrentUser | src/app/service/auth.ts:39-46 | the session slot is written or removed, and the field follows |
| Auth.AuthService.GetUsers | src/app/service/auth.ts:48-58 | the stored table, or none |
| Auth.AuthService.SaveUsers | src/app/service/auth.ts:60-62 | the table slot is written and nothing else changes |
| Auth.AuthService.HashPassword | src/app/service/auth.ts:64-74 | the shift-and-subtract loop computes the fold, printed in base 36 |
| Auth.AuthService.Register | src/app/service/auth.ts:76-110 | result and new state are `RegisterStep`'s; other slots are untouched |
| Auth.AuthService.Login | src/app/service/auth.ts:112-130 | result and new state are `LoginStep`'s; only the session slot may change |
| Auth.AuthService.Logout | src/app/service/auth.ts:132-135 | the session slot is removed and the state is `LogoutStep`'s |
| Auth.AuthService.UpdateAccount | src/app/service/auth.ts:137-176 | result and new state are `UpdateAccountStep`'s; other slots are untouched |
| Auth.AuthService.ChangePassword | src/app/service/auth.ts:178-212 | result and new state are `ChangePasswordStep`'s; only the table slot may change |
| Auth.AuthService.DeleteAccount | src/app/service/auth.ts:214-232 | result and new state are `DeleteAccountStep`'s; the user's `todos_<id>` slot and the session slot are removed |
| LegacyView.LegacyTodoComponent.constructor | src/app/component/todo/todo.ts:89-92 | empty list and input, not subscribed |
| LegacyView.LegacyTodoComponent.NgOnInit | src/app/component/todo/todo.ts:94-98 | subscribed, showing the service's list |
| LegacyView.LegacyTodoComponent.NgOnDestroy | src/app/component/todo/todo.ts:100-102 | no longer subscribed |
| LegacyView.LegacyTodoComponent.AddTodo | src/app/component/todo/todo.ts:104-109 | blank input: nothing changes, the service's counter and storage included; otherwise the untrimmed text is appended by the service, the counter advances, only the `todos` slot is rewritten and the input is cleared; the page's list follows only while subscribed |
| LegacyView.LegacyTodoComponent.ToggleTodo | src/app/component/todo/todo.ts:111-113 | the service's list becomes `Toggled` for that id; the counter stays; only the `todos` slot may change, and only when the id was found; the page's list follows only while subscribed |
| LegacyView.LegacyTodoComponent.DeleteTodo | src/app/component/todo/todo.ts:115-117 | the service's list becomes `Deleted` for that id; the counter stays; only the `todos` slot is rewritten; the page's list follows only while subscribed |
| LegacyView.LegacyTodoComponent.ClearCompleted | src/app/component/todo/todo.ts:119-121 | the service's list becomes `Cleared`; the counter stays; only the `todos` slot is rewritten; the page's list follows only while subscribed |
| LegacyView.LegacyTodoComponent.ActiveCountFacts | src/app/component/todo/todo.ts:122-124 | `ActiveTodosCount` is 0 iff every item is completed, the length iff none is, and the length of what clearing would leave |

## Left out

- Angular plumbing is not modelled: templates, change detection, dependency injection, and the `signal`/`computed`/`output` wrappers. Signals are fields, computeds are functions and outputs are an event log.
- The list page's `effect` is modelled only as the `ApplyFilters` call in the constructor. Its later automatic re-runs, such as after `onSearchChange` or a change to the service's list, are not modelled. The methods that call `applyFilters` themselves do refilter.
- The RxJS subject of the local list service is not modelled. The earlier page copies the service's list after each forwarded call while subscribed. In the source the page holds the service's own array, so after `ngOnDestroy` later pushes and in-place toggles by the service stay visible in it. The model's copy stops changing at `ngOnDestroy`.
- JSON text, `JSON.parse` failures and the `Date` type are not modelled. A storage slot holds the value written into it, and dates are ISO day strings. A missing slot reads as empty. The class invariants require each owned slot to hold the right kind of value.
- `Date.now()` and `Math.random()` are parameters: the clock of `addTodo`, and the id and creation time of `register`.
- `toLowerCase` is modelled for ASCII letters only. `charCodeAt` is the character's code, which is exact only inside the Basic Multilingual Plane; surrogate pairs are not modelled.
- `router.navigate` in `logout` is not modelled. Neither are the route guard, the header and the thin login, register and account forms.
- The richer list service that the newer components call is not part of this model. Its `getCategories`, `getPriorities`, `addTodo`, `updateTodo`, `toggleTodo`, `deleteTodo` and `clearCompleted` are represented by `StoreApi.TodoServiceApi`, which records requests. The components' contracts therefore speak of the requests sent, not of the list that results.
- `todosByCategory` and `todosByPriority` delegate to that service and are not modelled. `trackByTodoId` is a rendering helper and is not modelled.
- The list page's `updateTodo` has an empty body and is not modelled.
- The tests of the account service describe an HTTP, username-based service that differs from the email-based code, so no contract is taken from them.

=== FILE: auth.dfy ===
/** The local account service (src/app/service/auth.ts): a table of users
    with password hashes and a signed-in session, both kept in the browser's
    storage. Every account operation is first given as a step on the abstract
    state `Accounts`; the class then performs it on the storage slots and the
    session field, and its methods are proved to take exactly that step. The
    clock and random source that make a new user's id and creation time are
    parameters. */
module Auth {
  import opened Models
  import opened Seqs
  import opened Text
  import opened Hashing
  import opened Storage

  const USERS_KEY: string := "users"
  const CURRENT_USER_KEY: string := "currentUser"

  /** The slot the per-user list is kept under (`todos_${id}`). */
  function TodosKeyOf(id: string): string {
    "todos_" + id
  }

  /** The `{ success, error? }` result of an account operation. */
  datatype AuthResult = Success | Failure(error: string)

  /** The users table and the signed-in user. */
  datatype Accounts = Accounts(users: seq<StoredUser>, session: Option<User>)

  /** What an operation answers and the state it leaves. */
  datatype Outcome = Outcome(result: AuthResult, state: Accounts)

  /** Email addresses are compared without regard to case. */
  predicate SameEmail(a: string, b: string) {
    ToLower(a) == ToLower(b)
  }

  /** `users.some(u => u.email.toLowerCase() === email.toLowerCase())`. */
  predicate EmailTaken(users: seq<StoredUser>, email: string) {
    exists k :: 0 <= k < |users| && SameEmail(users[k].email, email)
  }

  /** An optional field that counts as given: present and not empty. */
  predicate Given(field: Option<string>) {
    field.Some? && field.value != []
  }

  /** `users.findIndex(u => u.id === id)`. */
  function IndexOfUser(users: seq<StoredUser>, id: string): (i: int)
    ensures -1 <= i < |users|
    ensures i == -1 <==> forall k :: 0 <= k < |users| ==> users[k].id != id
    ensures 0 <= i ==> users[i].id == id && forall k :: 0 <= k < i ==> users[k].id != id
  {
    FirstIndex(users, (u: StoredUser) => u.id == id)
  }

  /** A stored user that `login` accepts for `email` and `hash`: the email
      matches without regard to case and the stored hash is `hash`. */
  predicate LoginMatches(u: StoredUser, email: string, hash: string) {
    SameEmail(u.email, email) && u.passwordHash == hash
  }

  /** The user `login` signs in: the first whose email matches without regard
      to case and whose hash is `hash`. */
  function FindLogin(users: seq<StoredUser>, email: string, hash: string): (r: Option<StoredUser>)
    ensures r.None? <==> forall k :: 0 <= k < |users| ==> !LoginMatches(users[k], email, hash)
    ensures r.Some? ==> exists i :: 0 <= i < |users| && users[i] == r.value && LoginMatches(r.value, email, hash)
                                    && forall k :: 0 <= k < i ==> !LoginMatches(users[k], email, hash)
  {
    var i := FirstIndex(users, (u: StoredUser) => LoginMatches(u, email, hash));
    if i == -1 then None else Some(users[i])
  }

  /** `register`: the passwords must match, be at least six characters long,
      and the email must be new; then the user is stored and signed in. */
  function RegisterStep(a: Accounts, reg: UserRegistration, id: string, createdAt: string): (o: Outcome)
    ensures o.result.Success? <==>
      reg.password == reg.confirmPassword && |reg.password| >= 6 && !EmailTaken(a.users, reg.email)
    ensures reg.password != reg.confirmPassword ==> o.result == Failure("Passwords do not match")
    ensures reg.password == reg.confirmPassword && |reg.password| < 6 ==>
      o.result == Failure("Password must be at least 6 characters")
    ensures reg.password == reg.confirmPassword && |reg.password| >= 6 && EmailTaken(a.users, reg.email) ==>
      o.result == Failure("Email already registered")
    ensures o.result.Failure? ==> o.state == a
    ensures o.result.Success? ==>
      && o.state.users == a.users + [StoredUser(id, reg.email, reg.name, createdAt, PasswordHash(reg.password))]
      && o.state.session == Some(User(id, reg.email, reg.name, createdAt))
  {
    if reg.password != reg.confirmPassword then Outcome(Failure("Passwords do not match"), a)
    else if |reg.password| < 6 then Outcome(Failure("Password must be at least 6 characters"), a)
    else if EmailTaken(a.users, reg.email) then Outcome(Failure("Email already registered"), a)
    else
      var newUser := StoredUser(id, reg.email, reg.name, createdAt, PasswordHash(reg.password));
      Outcome(Success, Accounts(a.users + [newUser], Some(newUser.Public())))
  }

  /** `login`: sign in the first user whose email and password hash match. */
  function LoginStep(a: Accounts, cred: UserCredentials): (o: Outcome)
    ensures o.result.Success? <==>
      exists k :: 0 <= k < |a.users| && LoginMatches(a.users[k], cred.email, PasswordHash(cred.password))
    ensures o.result.Failure? ==> o.result.error == "Invalid email or password" && o.state == a
    ensures o.result.Success? ==>
      && o.state.users == a.users
      && exists i :: 0 <= i < |a.users| && LoginMatches(a.users[i], cred.email, PasswordHash(cred.password))
                     && o.state.session == Some(a.users[i].Public())
                     && forall k :: 0 <= k < i ==> !LoginMatches(a.users[k], cred.email, PasswordHash(cred.password))
  {
    match FindLogin(a.users, cred.email, PasswordHash(cred.password))
    case None => Outcome(Failure("Invalid email or password"), a)
    case Some(u) => Outcome(Success, a.(session := Some(u.Public())))
  }

  /** `logout`: the session ends; the table is untouched. */
  function LogoutStep(a: Accounts): (s: Accounts)
    ensures s.users == a.users && s.session.None?
  {
    a.(session := None)
  }

  /** A stored user with the given name and email applied, each only when
      given. */
  function Updated(u: StoredUser, update: UserUpdate): (v: StoredUser)
    ensures v.id == u.id && v.passwordHash == u.passwordHash && v.createdAt == u.createdAt
    ensures v.name == if Given(update.name) then update.name.value else u.name
    ensures v.email == if Given(update.email) then update.email.value else u.email
  {
    var named := if Given(update.name) then u.(name := update.name.value) else u;
    if Given(update.email) then named.(email := update.email.value) else named
  }

  /** `updateAccount`: the signed-in user's record gets the given name and
      email, unless the email, compared without regard to case, changes to
      one another user id already has. */
  function UpdateAccountStep(a: Accounts, update: UserUpdate): (o: Outcome)
    ensures a.session.None? ==> o == Outcome(Failure("Not authenticated"), a)
    ensures a.session.Some? && IndexOfUser(a.users, a.session.value.id) == -1 ==>
      o == Outcome(Failure("User not found"), a)
    ensures a.session.Some? && IndexOfUser(a.users, a.session.value.id) != -1
            && Given(update.email) && !SameEmail(update.email.value, a.session.value.email)
            && (exists k :: 0 <= k < |a.users| && a.users[k].id != a.session.value.id
                            && SameEmail(a.users[k].email, update.email.value)) ==>
      o == Outcome(Failure("Email already in use"), a)
    ensures o.result.Failure? ==> o.state == a
    ensures o.result.Success? <==>
      && a.session.Some? && IndexOfUser(a.users, a.session.value.id) != -1
      && !(Given(update.email) && !SameEmail(update.email.value, a.session.value.email)
           && exists k :: 0 <= k < |a.users| && a.users[k].id != a.session.value.id
                          && SameEmail(a.users[k].email, update.email.value))
    ensures o.result.Success? ==>
      var i := IndexOfUser(a.users, a.session.value.id);
      && o.state.users == a.users[i := Updated(a.users[i], update)]
      && o.state.session == Some(Updated(a.users[i], update).Public())
  {
    if a.session.None? then Outcome(Failure("Not authenticated"), a)
    else
      var current := a.session.value;
      var i := IndexOfUser(a.users, current.id);
      if i == -1 then Outcome(Failure("User not found"), a)
      else if Given(update.email) && !SameEmail(update.email.value, current.email)
              && exists k :: 0 <= k < |a.users| && a.users[k].id != current.id && SameEmail(a.users[k].email, update.email.value)
      then Outcome(Failure("Email already in use"), a)
      else
        var updated := Updated(a.users[i], update);
        Outcome(Success, Accounts(a.users[i := updated], Some(updated.Public())))
  }

  /** `changePassword`: checks in the source's order, then the signed-in
      user's hash is replaced; the session is unchanged. */
  function ChangePasswordStep(a: Accounts, change: PasswordChange): (o: Outcome)
    ensures a.session.None? ==> o.result == Failure("Not authenticated")
    ensures a.session.Some? && change.newPassword != change.confirmPassword ==>
      o.result == Failure("New passwords do not match")
    ensures a.session.Some? && change.newPassword == change.confirmPassword && |change.newPassword| < 6 ==>
      o.result == Failure("Password must be at least 6 characters")
    ensures a.session.Some? && change.newPassword == change.confirmPassword && |change.newPassword| >= 6
            && IndexOfUser(a.users, a.session.value.id) == -1 ==>
      o.result == Failure("User not found")
    ensures a.session.Some? && change.newPassword == change.confirmPassword && |change.newPassword| >= 6
            && IndexOfUser(a.users, a.session.value.id) != -1
            && a.users[IndexOfUser(a.users, a.session.value.id)].passwordHash != PasswordHash(change.currentPassword) ==>
      o.result == Failure("Current password is incorrect")
    ensures o.result.Failure? ==> o.state == a
    ensures o.result.Success? <==>
      && a.session.Some? && change.newPassword == change.confirmPassword && |change.newPassword| >= 6
      && IndexOfUser(a.users, a.session.value.id) != -1
      && a.users[IndexOfUser(a.users, a.session.value.id)].passwordHash == PasswordHash(change.currentPassword)
    ensures o.result.Success? ==>
      var i := IndexOfUser(a.users, a.session.value.id);
      && o.state.users == a.users[i := a.users[i].(passwordHash := PasswordHash(change.newPassword))]
      && o.state.session == a.session
  {
    if a.session.None? then Outcome(Failure("Not authenticated"), a)
    else if change.newPassword != change.confirmPassword then Outcome(Failure("New passwords do not match"), a)
    else if |change.newPassword| < 6 then Outcome(Failure("Password must be at least 6 characters"), a)
    else
      var i := IndexOfUser(a.users, a.session.value.id);
      if i == -1 then Outcome(Failure("User not found"), a)
      else if a.users[i].passwordHash != PasswordHash(change.currentPassword) then
        Outcome(Failure("Current password is incorrect"), a)
      else
        Outcome(Success, a.(users := a.users[i := a.users[i].(passwordHash := PasswordHash(change.newPassword))]))
  }

  /** `deleteAccount`: every stored user with the signed-in id is removed and
      the session ends. */
  function DeleteAccountStep(a: Accounts): (o: Outcome)
    ensures a.session.None? ==> o == Outcome(Failure("Not authenticated"), a)
    ensures a.session.Some? ==> o.result.Success? && o.state.session.None?
    ensures a.session.Some? ==> forall u :: u in o.state.users <==> u in a.users && u.id != a.session.value.id
    ensures a.session.Some? ==> IsSubsequence(o.state.users, a.users)
    ensures a.session.Some? ==>
      |o.state.users| == |a.users| - Count(a.users, (u: StoredUser) => u.id == a.session.value.id)
  {
    if a.session.None? then Outcome(Failure("Not authenticated"), a)
    else
      var id := a.session.value.id;
      var kept := Filter(a.users, (u: StoredUser) => u.id != id);
      assert forall u :: u in kept <==> u in a.users && u.id != id by {
        forall u ensures u in kept <==> u in a.users && u.id != id {
          FilterMembership(a.users, (u: StoredUser) => u.id != id, u);
        }
      }
      FilterIsSubsequence(a.users, (u: StoredUser) => u.id != id);
      FilterLength(a.users, (u: StoredUser) => u.id != id);
      CountComplement(a.users, (u: StoredUser) => u.id == id, (u: StoredUser) => u.id != id);
      Outcome(Success, Accounts(kept, None))
  }

  /** The table's invariants: ids are distinct, emails are distinct without
      regard to case, and a session belongs to a stored user. */
  predicate IdsUnique(users: seq<StoredUser>) {
    forall i, j :: 0 <= i < j < |users| ==> users[i].id != users[j].id
  }

  predicate EmailsUnique(users: seq<StoredUser>) {
    forall i, j :: 0 <= i < j < |users| ==> !SameEmail(users[i].email, users[j].email)
  }

  predicate SessionStored(a: Accounts) {
    a.session.Some? ==> exists k :: 0 <= k < |a.users| && a.users[k].Public() == a.session.value
  }

  predicate Consistent(a: Accounts) {
    IdsUnique(a.users) && EmailsUnique(a.users) && SessionStored(a)
  }

  /** Registering with an id no stored user has keeps the table consistent. */
  lemma RegisterKeepsConsistent(a: Accounts, reg: UserRegistration, id: string, createdAt: string)
    requires Consistent(a)
    requires forall k :: 0 <= k < |a.users| ==> a.users[k].id != id
    ensures Consistent(RegisterStep(a, reg, id, createdAt).state)
  {
    var o := RegisterStep(a, reg, id, createdAt);
    if o.result.Success? {
      var users := o.state.users;
      assert users[|users| - 1].Public() == o.state.session.value;
      forall i, j | 0 <= i < j < |users|
        ensures users[i].id != users[j].id && !SameEmail(users[i].email, users[j].email)
      {
        if j == |users| - 1 {
          assert users[i] == a.users[i];
        }
      }
    }
  }

  lemma LoginKeepsConsistent(a: Accounts, cred: UserCredentials)
    requires Consistent(a)
    ensures Consistent(LoginStep(a, cred).state)
  {
    var o := LoginStep(a, cred);
    if o.result.Success? {
      var i :| 0 <= i < |a.users| && LoginMatches(a.users[i], cred.email, PasswordHash(cred.password))
               && o.state.session == Some(a.users[i].Public())
               && forall k :: 0 <= k < i ==> !LoginMatches(a.users[k], cred.email, PasswordHash(cred.password));
    }
  }

  lemma LogoutKeepsConsistent(a: Accounts)
    requires Consistent(a)
    ensures Consistent(LogoutStep(a))
  {
  }

  /** The signed-in user's stored record is the one at its id's index. */
  lemma SessionAtIndex(a: Accounts)
    requires Consistent(a) && a.session.Some?
    ensures 0 <= IndexOfUser(a.users, a.session.value.id)
    ensures a.users[IndexOfUser(a.users, a.session.value.id)].Public() == a.session.value
  {
    var k :| 0 <= k < |a.users| && a.users[k].Public() == a.session.value;
    var i := IndexOfUser(a.users, a.session.value.id);
    assert i != -1 by {
      assert a.users[k].id == a.session.value.id;
    }
    assert i == k;
  }

  /** The email check of `updateAccount` keeps emails distinct, because the
      session's email is the stored one. */
  lemma UpdateAccountKeepsConsistent(a: Accounts, update: UserUpdate)
    requires Consistent(a)
    ensures Consistent(UpdateAccountStep(a, update).state)
  {
    var o := UpdateAccountStep(a, update);
    if o.result.Success? {
      SessionAtIndex(a);
      var i := IndexOfUser(a.users, a.session.value.id);
      var users := o.state.users;
      assert users[i].Public() == o.state.session.value;
      forall p, q | 0 <= p < q < |users|
        ensures users[p].id != users[q].id && !SameEmail(users[p].email, users[q].email)
      {
        if p == i || q == i {
          var other := if p == i then q else p;
          assert users[other] == a.users[other];
          assert a.users[other].id != a.users[i].id;
          if Given(update.email) && !SameEmail(update.email.value, a.session.value.email) {
            assert !SameEmail(a.users[other].email, update.email.value);
          }
        }
      }
    }
  }

  lemma ChangePasswordKeepsConsistent(a: Accounts, change: PasswordChange)
    requires Consistent(a)
    ensures Consistent(ChangePasswordStep(a, change).state)
  {
    var o := ChangePasswordStep(a, change);
    if o.result.Success? {
      SessionAtIndex(a);
      var i := IndexOfUser(a.users, a.session.value.id);
      assert o.state.users[i].Public() == a.session.value;
    }
  }

  lemma DeleteAccountKeepsConsistent(a: Accounts)
    requires Consistent(a)
    ensures Consistent(DeleteAccountStep(a).state)
  {
    if a.session.Some? {
      var id := a.session.value.id;
      var p := (u: StoredUser) => u.id != id;
      FilterIsSubsequence(a.users, p);
      SubsequenceKeepsUnique(Filter(a.users, p), a.users);
    }
  }

  /** A subsequence of a consistent table has distinct ids and emails. */
  lemma {:induction false} SubsequenceKeepsUnique(s: seq<StoredUser>, t: seq<StoredUser>)
    requires IsSubsequence(s, t)
    requires IdsUnique(t) && EmailsUnique(t)
    ensures IdsUnique(s) && EmailsUnique(s)
    decreases |t|
  {
    if s != [] && t != [] {
      assert IdsUnique(t[1..]) && EmailsUnique(t[1..]);
      if s[0] == t[0] && IsSubsequence(s[1..], t[1..]) {
        SubsequenceKeepsUnique(s[1..], t[1..]);
        SubsequenceMembers(s[1..], t[1..]);
        forall j | 0 < j < |s|
          ensures s[0].id != s[j].id && !SameEmail(s[0].email, s[j].email)
        {
          assert s[j] == s[1..][j - 1] && s[j] in s[1..];
          var k :| 0 <= k < |t[1..]| && t[1..][k] == s[j];
          assert t[k + 1] == s[j];
        }
      } else {
        SubsequenceKeepsUnique(s, t[1..]);
      }
    }
  }

  lemma {:induction false} SubsequenceMembers(s: seq<StoredUser>, t: seq<StoredUser>)
    requires IsSubsequence(s, t)
    ensures forall x :: x in s ==> x in t
    decreases |t|
  {
    if s != [] && t != [] {
      if s[0] == t[0] && IsSubsequence(s[1..], t[1..]) {
        SubsequenceMembers(s[1..], t[1..]);
        assert forall x :: x in s ==> x == s[0] || x in s[1..];
      } else {
        SubsequenceMembers(s, t[1..]);
      }
    }
  }

  /** A fresh registration can sign straight back in with the same email and
      password, and the session is then the new user. */
  lemma RegisterThenLogin(a: Accounts, reg: UserRegistration, id: string, createdAt: string)
    requires RegisterStep(a, reg, id, createdAt).result.Success?
    ensures var s := RegisterStep(a, reg, id, createdAt).state;
            LoginStep(s, UserCredentials(reg.email, reg.password))
              == Outcome(Success, s.(session := Some(User(id, reg.email, reg.name, createdAt))))
  {
    var s := RegisterStep(a, reg, id, createdAt).state;
    var newUser := StoredUser(id, reg.email, reg.name, createdAt, PasswordHash(reg.password));
    FindLoginLast(a.users, newUser, reg.email);
  }

  /** With no earlier email match, the login search finds the last record
      when it matches. */
  lemma FindLoginLast(users: seq<StoredUser>, u: StoredUser, email: string)
    requires !EmailTaken(users, email) && SameEmail(u.email, email)
    ensures FindLogin(users + [u], email, u.passwordHash) == Some(u)
  {
    var all := users + [u];
    assert LoginMatches(all[|users|], email, u.passwordHash);
    var i :| 0 <= i < |all| && all[i] == FindLogin(all, email, u.passwordHash).value
             && LoginMatches(all[i], email, u.passwordHash)
             && forall k :: 0 <= k < i ==> !LoginMatches(all[k], email, u.passwordHash);
    if i < |users| {
      assert all[i] == users[i];
    }
  }

  /** After a successful password change the signed-in user can sign in
      with the new password. */
  lemma ChangePasswordThenLogin(a: Accounts, change: PasswordChange)
    requires Consistent(a)
    requires ChangePasswordStep(a, change).result.Success?
    ensures LoginStep(ChangePasswordStep(a, change).state,
                      UserCredentials(a.session.value.email, change.newPassword)).result.Success?
  {
    SessionAtIndex(a);
    var i := IndexOfUser(a.users, a.session.value.id);
    var users := ChangePasswordStep(a, change).state.users;
    assert SameEmail(users[i].email, a.session.value.email);
  }

  /** The demonstration hash lets a different password in: an account
      registered with "AaAaAa" can be signed into with "BBBBBB". */
  lemma CollidingPasswordLogsIn(a: Accounts, email: string, name: string, id: string, createdAt: string)
    requires !EmailTaken(a.users, email)
    ensures var s := RegisterStep(a, UserRegistration(email, "AaAaAa", name, "AaAaAa"), id, createdAt).state;
            LoginStep(s, UserCredentials(email, "BBBBBB")).result.Success?
  {
    HashCollision();
    var s := RegisterStep(a, UserRegistration(email, "AaAaAa", name, "AaAaAa"), id, createdAt).state;
    assert s.users[|s.users| - 1].passwordHash == PasswordHash("BBBBBB");
  }

  /** What `getUsers` reads: the stored table, or none. */
  function StoredUsers(slots: map<string, StoredValue>): seq<StoredUser> {
    if USERS_KEY in slots && slots[USERS_KEY].UserList? then slots[USERS_KEY].users else []
  }

  /** What `loadCurrentUser` reads: the stored session, or none. */
  function StoredSession(slots: map<string, StoredValue>): Option<User> {
    if CURRENT_USER_KEY in slots && slots[CURRENT_USER_KEY].UserRecord? then Some(slots[CURRENT_USER_KEY].user) else None
  }

  /** The slots the service owns hold values of the right kind. */
  predicate SlotsWellFormed(slots: map<string, StoredValue>) {
    && (USERS_KEY in slots ==> slots[USERS_KEY].UserList?)
    && (CURRENT_USER_KEY in slots ==> slots[CURRENT_USER_KEY].UserRecord?)
  }

  class AuthService {
    const storage: LocalStorage
    var currentUser: Option<User>

    /** The slots are well formed and the session field mirrors its slot. */
    ghost predicate Valid()
      reads this, storage
    {
      SlotsWellFormed(storage.slots) && StoredSession(storage.slots) == currentUser
    }

    /** The abstract state this service holds. */
    function State(): Accounts
      reads this, storage
    {
      Accounts(StoredUsers(storage.slots), currentUser)
    }

    /** The service starts signed in as the stored session, if any. */
    constructor (storage: LocalStorage)
      requires SlotsWellFormed(storage.slots)
      ensures this.storage == storage && Valid()
      ensures currentUser == StoredSession(storage.slots)
    {
      this.storage := storage;
      currentUser := None;
      new;
      LoadCurrentUser();
    }

    /** `isAuthenticated`. */
    function IsAuthenticated(): (b: bool)
      reads this
      ensures b <==> currentUser.Some?
    {
      currentUser != None
    }

    /** `loadCurrentUser`: take the stored session when there is one. */
    method LoadCurrentUser()
      requires SlotsWellFormed(storage.slots)
      modifies this`currentUser
      ensures currentUser == if CURRENT_USER_KEY in storage.slots then StoredSession(storage.slots) else old(currentUser)
    {
      if CURRENT_USER_KEY in storage.slots {
        currentUser := Some(storage.slots[CURRENT_USER_KEY].user);
      }
    }

    /** `saveCurrentUser`: write or remove the session slot, then set the
        field. */
    method SaveCurrentUser(user: Option<User>)
      modifies this`currentUser, storage
      ensures storage.slots == if user.Some? then old(storage.slots)[CURRENT_USER_KEY := UserRecord(user.value)]
                               else old(storage.slots) - {CURRENT_USER_KEY}
      ensures currentUser == user
    {
      if user.Some? {
        storage.SetItem(CURRENT_USER_KEY, UserRecord(user.value));
      } else {
        storage.RemoveItem(CURRENT_USER_KEY);
      }
      currentUser := user;
    }

    /** `getUsers`. */
    method GetUsers() returns (users: seq<StoredUser>)
      ensures users == StoredUsers(storage.slots)
    {
      if USERS_KEY in storage.slots && storage.slots[USERS_KEY].UserList? {
        users := storage.slots[USERS_KEY].users;
      } else {
        users := [];
      }
    }

    /** `saveUsers`. */
    method SaveUsers(users: seq<StoredUser>)
      modifies storage
      ensures storage.slots == old(storage.slots)[USERS_KEY := UserList(users)]
    {
      storage.SetItem(USERS_KEY, UserList(users));
    }

    /** `hashPassword`: the shift-and-subtract loop over the code units, then
        the number in base 36. */
    method HashPassword(password: string) returns (hash: string)
      ensures hash == PasswordHash(password)
    {
      var h := 0;
      var i := 0;
      while i < |password|
        invariant 0 <= i <= |password|
        invariant h == HashFold(password[..i])
      {
        var c := CodeUnit(password[i]);
        ShiftStep(h, c);
        assert password[..i + 1][..i] == password[..i];
        h := ToInt32(ToInt32(h * 32) - h + c);
        i := i + 1;
      }
      assert password[..i] == password;
      hash := Base36(h);
    }

    /** `register`, with the new user's id and creation time given. */
    method Register(reg: UserRegistration, id: string, createdAt: string) returns (result: AuthResult)
      requires Valid()
      modifies this`currentUser, storage
      ensures Valid()
      ensures Outcome(result, State()) == RegisterStep(old(State()), reg, id, createdAt)
      ensures storage.slots - {USERS_KEY, CURRENT_USER_KEY} == old(storage.slots) - {USERS_KEY, CURRENT_USER_KEY}
    {
      if reg.password != reg.confirmPassword {
        return Failure("Passwords do not match");
      }
      if |reg.password| < 6 {
        return Failure("Password must be at least 6 characters");
      }
      var users := GetUsers();
      if EmailTaken(users, reg.email) {
        return Failure("Email already registered");
      }
      var hash := HashPassword(reg.password);
      var newUser := StoredUser(id, reg.email, reg.name, createdAt, hash);
      users := users + [newUser];
      SaveUsers(users);
      SaveCurrentUser(Some(User(id, reg.email, reg.name, createdAt)));
      return Success;
    }

    /** `login`. */
    method Login(cred: UserCredentials) returns (result: AuthResult)
      requires Valid()
      modifies this`currentUser, storage
      ensures Valid()
      ensures Outcome(result, State()) == LoginStep(old(State()), cred)
      ensures storage.slots - {CURRENT_USER_KEY} == old(storage.slots) - {CURRENT_USER_KEY}
    {
      var users := GetUsers();
      var hash := HashPassword(cred.password);
      var user := FindLogin(users, cred.email, hash);
      if user.None? {
        return Failure("Invalid email or password");
      }
      SaveCurrentUser(Some(user.value.Public()));
      return Success;
    }

    /** `logout`; the navigation to the start page is not modelled. */
    method Logout()
      modifies this`currentUser, storage
      ensures Valid() <== old(Valid())
      ensures State() == LogoutStep(old(State()))
      ensures storage.slots == old(storage.slots) - {CURRENT_USER_KEY}
    {
      SaveCurrentUser(None);
    }

    /** `updateAccount`. */
    method UpdateAccount(update: UserUpdate) returns (result: AuthResult)
      requires Valid()
      modifies this`currentUser, storage
      ensures Valid()
      ensures Outcome(result, State()) == UpdateAccountStep(old(State()), update)
      ensures storage.slots - {USERS_KEY, CURRENT_USER_KEY} == old(storage.slots) - {USERS_KEY, CURRENT_USER_KEY}
    {
      if currentUser.None? {
        return Failure("Not authenticated");
      }
      var current := currentUser.value;
      var users := GetUsers();
      var userIndex := IndexOfUser(users, current.id);
      if userIndex == -1 {
        return Failure("User not found");
      }
      if Given(update.email) && !SameEmail(update.email.value, current.email)
         && exists k :: 0 <= k < |users| && users[k].id != current.id && SameEmail(users[k].email, update.email.value)
      {
        return Failure("Email already in use");
      }
      var updated := Updated(users[userIndex], update);
      users := users[userIndex := updated];
      SaveUsers(users);
      SaveCurrentUser(Some(updated.Public()));
      return Success;
    }

    /** `changePassword`. */
    method ChangePassword(change: PasswordChange) returns (result: AuthResult)
      requires Valid()
      modifies storage
      ensures Valid()
      ensures Outcome(result, State()) == ChangePasswordStep(old(State()), change)
      ensures storage.slots - {USERS_KEY} == old(storage.slots) - {USERS_KEY}
    {
      if currentUser.None? {
        return Failure("Not authenticated");
      }
      var current := currentUser.value;
      if change.newPassword != change.confirmPassword {
        return Failure("New passwords do not match");
      }
      if |change.newPassword| < 6 {
        return Failure("Password must be at least 6 characters");
      }
      var users := GetUsers();
      var userIndex := IndexOfUser(users, current.id);
      if userIndex == -1 {
        return Failure("User not found");
      }
      var currentHash := HashPassword(change.currentPassword);
      if users[userIndex].passwordHash != currentHash {
        return Failure("Current password is incorrect");
      }
      var newHash := HashPassword(change.newPassword);
      users := users[userIndex := users[userIndex].(passwordHash := newHash)];
      SaveUsers(users);
      return Success;
    }

    /** `deleteAccount`: drop the user's list slot and every stored record
        with the user's id, then sign out. */
    method DeleteAccount() returns (result: AuthResult)
      requires Valid()
      modifies this`currentUser, storage
      ensures Valid()
      ensures Outcome(result, State()) == DeleteAccountStep(old(State()))
      ensures old(currentUser).Some? ==>
        storage.slots - {USERS_KEY} == old(storage.slots) - {TodosKeyOf(old(currentUser).value.id), CURRENT_USER_KEY, USERS_KEY}
      ensures old(currentUser).None? ==> storage.slots == old(storage.slots)
    {
      if currentUser.None? {
        return Failure("Not authenticated");
      }
      var current := currentUser.value;
      storage.RemoveItem("todos_" + current.id);
      var users := GetUsers();
      var filteredUsers := Filter(users, (u: StoredUser) => u.id != current.id);
      SaveUsers(filteredUsers);
      Logout();
      return Success;
    }
  }
}

=== FILE: hashing.dfy ===
/** The demonstration password hash of the account service
    (src/app/service/auth.ts, `hashPassword`): a multiply-by-31 fold over the
    UTF-16 code units, kept in signed 32-bit range, printed in base 36. */
module Hashing {

  const TWO_32: int := 0x1_0000_0000
  const TWO_31: int := 0x8000_0000

  predicate IsInt32(x: int) {
    -TWO_31 <= x < TWO_31
  }

  /** ECMAScript's ToInt32: reduce modulo 2^32 into the signed range. */
  function ToInt32(x: int): (r: int)
    ensures IsInt32(r)
    ensures (x - r) % TWO_32 == 0
  {
    var m := x % TWO_32;
    if m < TWO_31 then m else m - TWO_32
  }

  /** Values that agree modulo 2^32 wrap to the same 32-bit integer. */
  lemma ToInt32Congruent(x: int, y: int)
    requires (x - y) % TWO_32 == 0
    ensures ToInt32(x) == ToInt32(y)
  {
    var q := (x - y) / TWO_32;
    assert x == y + q * TWO_32;
    ModShift(y, q);
  }

  lemma ModShift(y: int, q: int)
    ensures (y + q * TWO_32) % TWO_32 == y % TWO_32
  {
  }

  /** `charCodeAt`, for characters of the Basic Multilingual Plane. */
  function CodeUnit(c: char): int {
    c as int
  }

  /** The hash of `s` as a number: 0 for the empty text, then
      `hash * 31 + code` wrapped to 32 bits for every character in turn. */
  function HashFold(s: string): (h: int)
    ensures IsInt32(h)
  {
    if s == [] then 0
    else ToInt32(31 * HashFold(s[..|s| - 1]) + CodeUnit(s[|s| - 1]))
  }

  /** One step of the source's loop, `(hash << 5) - hash + char` followed by
      `hash & hash`, is the wrapped `hash * 31 + char`. */
  lemma ShiftStep(h: int, c: int)
    ensures ToInt32(ToInt32(h * 32) - h + c) == ToInt32(31 * h + c)
  {
    var s := ToInt32(h * 32);
    assert (h * 32 - s) % TWO_32 == 0;
    assert (s - h + c) - (31 * h + c) == s - h * 32;
    ToInt32Congruent(s - h + c, 31 * h + c);
  }

  /** `Number.prototype.toString(36)`'s digit alphabet. */
  function Digit(d: int): char
    requires 0 <= d < 36
  {
    if d < 10 then (48 + d) as char else (87 + d) as char
  }

  /** The base-36 digits of a non-negative number, most significant first,
      without leading zeros. */
  function Digits(n: nat): (s: string)
    ensures |s| >= 1 && '-' !in s
    ensures n >= 36 ==> |s| >= 2
    ensures s[|s| - 1] == Digit(n % 36)
  {
    if n < 36 then [Digit(n)] else Digits(n / 36) + [Digit(n % 36)]
  }

  /** `n.toString(36)` for an integer `n`. */
  function Base36(n: int): (s: string)
    ensures |s| >= 1
    ensures s[0] == '-' <==> n < 0
  {
    if n < 0 then "-" + Digits(-n) else Digits(n)
  }

  lemma {:induction false} DigitsInjective(a: nat, b: nat)
    requires Digits(a) == Digits(b)
    ensures a == b
  {
    if a >= 36 && b >= 36 {
      var da, db := Digits(a), Digits(b);
      assert Digits(a / 36) == da[..|da| - 1];
      assert Digits(b / 36) == db[..|db| - 1];
      DigitsInjective(a / 36, b / 36);
    }
  }

  /** Different numbers print differently in base 36, so comparing printed
      hashes is comparing the numbers. */
  lemma Base36Injective(a: int, b: int)
    requires Base36(a) == Base36(b)
    ensures a == b
  {
    if a < 0 {
      assert Base36(a)[1..] == Digits(-a);
      assert Base36(b)[1..] == Digits(-b);
      DigitsInjective(-a, -b);
    } else {
      DigitsInjective(a, b);
    }
  }

  /** The stored password hash. */
  function PasswordHash(password: string): string {
    Base36(HashFold(password))
  }

  /** Two passwords have the same stored hash exactly when their folds agree. */
  lemma PasswordHashMatch(p: string, q: string)
    ensures PasswordHash(p) == PasswordHash(q) <==> HashFold(p) == HashFold(q)
  {
    if PasswordHash(p) == PasswordHash(q) {
      Base36Injective(HashFold(p), HashFold(q));
    }
  }

  /** The fold only depends on the state reached so far: texts with equal
      hashes keep equal hashes under the same continuation. */
  lemma {:induction false} HashFoldExtend(p: string, q: string, w: string)
    requires HashFold(p) == HashFold(q)
    ensures HashFold(p + w) == HashFold(q + w)
  {
    if w == [] {
      assert p + w == p && q + w == q;
    } else {
      var w' := w[..|w| - 1];
      HashFoldExtend(p, q, w');
      assert (p + w)[..|p + w| - 1] == p + w';
      assert (q + w)[..|q + w| - 1] == q + w';
    }
  }

  /** The two-character tails "Aa" and "BB" move every hash state to the
      same next state: 31 * (31h + 65) + 97 == 31 * (31h + 66) + 66. */
  lemma PairCollision(p: string)
    ensures HashFold(p + "Aa") == HashFold(p + "BB")
  {
    var h := HashFold(p);
    assert (p + "Aa")[..|p + "Aa"| - 1] == p + "A" && (p + "A")[..|p + "A"| - 1] == p;
    assert (p + "BB")[..|p + "BB"| - 1] == p + "B" && (p + "B")[..|p + "B"| - 1] == p;
    WrapTwice(h, 65, 97);
    WrapTwice(h, 66, 66);
  }

  /** Wrapping after each of two steps is wrapping once at the end. */
  lemma WrapTwice(h: int, c: int, d: int)
    ensures ToInt32(31 * ToInt32(31 * h + c) + d) == ToInt32(961 * h + 31 * c + d)
  {
    var x := 31 * h + c;
    var q := (x - ToInt32(x)) / TWO_32;
    assert x - ToInt32(x) == q * TWO_32;
    assert (31 * ToInt32(x) + d) - (961 * h + 31 * c + d) == (31 * q) * -TWO_32;
    ToInt32Congruent(31 * ToInt32(x) + d, 961 * h + 31 * c + d);
  }

  /** The hash is not collision-free: "AaAaAa" and "BBBBBB", both long enough
      to be accepted as passwords, share their stored hash. */
  lemma HashCollision()
    ensures "AaAaAa" != "BBBBBB"
    ensures PasswordHash("AaAaAa") == PasswordHash("BBBBBB")
  {
    assert "AaAaAa"[1] != "BBBBBB"[1];
    PairCollision([]);
    assert [] + "Aa" == "Aa" && [] + "BB" == "BB";
    HashFoldExtend("Aa", "BB", "BB");
    PairCollision("Aa");
    assert "Aa" + "BB" == "AaBB" && "BB" + "BB" == "BBBB" && "Aa" + "Aa" == "AaAa";
    HashFoldExtend("AaAa", "BBBB", "BB");
    PairCollision("AaAa");
    assert "AaAa" + "BB" == "AaAaBB" && "BBBB" + "BB" == "BBBBBB" && "AaAa" + "Aa" == "AaAaAa";
  }
}

=== FILE: legacy_view.dfy ===
/** The earlier list page (src/app/component/todo/todo.ts), which drives the
    local list service directly. While subscribed it holds whatever list the
    service last published; the service publishes after each change it
    saves, so the copy here is refreshed after every forwarded call. */
module LegacyView {
  import opened Models
  import opened Seqs
  import opened Text
  import opened Storage
  import opened TodoStore

  class LegacyTodoComponent {
    const service: TodoService
    var todos: seq<Todo>
    var newTodoText: string
    /** Whether the subscription to the service's list is open. */
    var subscribed: bool

    /** The service is consistent and, while subscribed, the page shows the
        service's list. */
    ghost predicate Valid()
      reads this, service, service.storage
    {
      service.Valid() && (subscribed ==> todos == service.todos)
    }

    constructor (service: TodoService)
      requires service.Valid()
      ensures this.service == service && Valid()
      ensures todos == [] && newTodoText == "" && !subscribed
    {
      this.service := service;
      todos := [];
      newTodoText := "";
      subscribed := false;
    }

    /** `ngOnInit`: subscribe; the service hands over its current list at
        once. */
    method NgOnInit()
      requires Valid()
      modifies this`todos, this`subscribed
      ensures Valid() && subscribed && todos == service.todos
    {
      subscribed := true;
      todos := service.todos;
    }

    /** `ngOnDestroy`: later changes are no longer received. */
    method NgOnDestroy()
      requires Valid()
      modifies this`subscribed
      ensures Valid() && !subscribed
    {
      subscribed := false;
    }

    /** `addTodo` at clock reading `now`: a blank input does nothing;
        otherwise the text goes to the service as typed, untrimmed, and the
        input is cleared. */
    method AddTodo(now: int)
      requires Valid()
      modifies this`todos, this`newTodoText, service, service.storage
      ensures Valid()
      ensures AllWhitespace(old(newTodoText)) ==>
        && newTodoText == old(newTodoText) && todos == old(todos)
        && service.todos == old(service.todos) && service.storage.slots == old(service.storage.slots)
        && service.idCounter == old(service.idCounter) && service.clocks == old(service.clocks)
      ensures !AllWhitespace(old(newTodoText)) ==>
        && newTodoText == ""
        && service.todos == old(service.todos) + [Todo(now + old(service.idCounter), old(newTodoText), false)]
        && service.idCounter == old(service.idCounter) + 1 && service.clocks == old(service.clocks) + [now]
        && service.storage.slots == old(service.storage.slots)[TODOS_KEY := TodoList(service.todos)]
      ensures subscribed == old(subscribed)
      ensures !subscribed ==> todos == old(todos)
    {
      TrimEmptyIffBlank(newTodoText);
      if Trim(newTodoText) != [] {
        service.AddTodo(newTodoText, now);
        if subscribed {
          todos := service.todos;
        }
        newTodoText := "";
      }
    }

    /** `toggleTodo`: forwarded unchanged. */
    method ToggleTodo(id: int)
      requires Valid()
      modifies this`todos, service, service.storage
      ensures Valid() && subscribed == old(subscribed)
      ensures service.todos == Toggled(old(service.todos), id)
      ensures service.idCounter == old(service.idCounter) && service.clocks == old(service.clocks)
      ensures service.storage.slots == if IndexOfId(old(service.todos), id) == -1 then old(service.storage.slots)
                                       else old(service.storage.slots)[TODOS_KEY := TodoList(service.todos)]
      ensures !subscribed ==> todos == old(todos)
    {
      service.ToggleTodo(id);
      if subscribed {
        todos := service.todos;
      }
    }

    /** `deleteTodo`: forwarded unchanged. */
    method DeleteTodo(id: int)
      requires Valid()
      modifies this`todos, service, service.storage
      ensures Valid() && subscribed == old(subscribed)
      ensures service.todos == Deleted(old(service.todos), id)
      ensures service.idCounter == old(service.idCounter) && service.clocks == old(service.clocks)
      ensures service.storage.slots == old(service.storage.slots)[TODOS_KEY := TodoList(service.todos)]
      ensures !subscribed ==> todos == old(todos)
    {
      service.DeleteTodo(id);
      if subscribed {
        todos := service.todos;
      }
    }

    /** `clearCompleted`: forwarded unchanged. */
    method ClearCompleted()
      requires Valid()
      modifies this`todos, service, service.storage
      ensures Valid() && subscribed == old(subscribed)
      ensures service.todos == Cleared(old(service.todos))
      ensures service.idCounter == old(service.idCounter) && service.clocks == old(service.clocks)
      ensures service.storage.slots == old(service.storage.slots)[TODOS_KEY := TodoList(service.todos)]
      ensures !subscribed ==> todos == old(todos)
    {
      service.ClearCompleted();
      if subscribed {
        todos := service.todos;
      }
    }

    /** `activeTodosCount`: the number of items not completed. */
    function ActiveTodosCount(): nat
      reads this
    {
      Count(todos, IsActive)
    }

    /** The count is zero exactly when no item is active (in particular for
        an empty list), equals the length exactly when none is completed, and
        is what clearing completed items would leave. */
    lemma ActiveCountFacts()
      ensures ActiveTodosCount() == 0 <==> forall k :: 0 <= k < |todos| ==> todos[k].completed
      ensures ActiveTodosCount() == |todos| <==> forall k :: 0 <= k < |todos| ==> !todos[k].completed
      ensures ActiveTodosCount() == |Cleared(todos)|
    {
      CountExtremes(todos, IsActive);
      ClearedKeepsActive(todos);
    }
  }
}

=== FILE: models.dfy ===
/** The application's records: the shapes declared in src/app/models and the
    three-field record that the list service builds. Dates are kept as their
    ISO text; their arithmetic plays no part in the logic modelled here. */
module Models {

  /** A possibly absent value (`undefined` / `null` in the source). */
  datatype Option<T> = None | Some(value: T)

  /** The closed enumeration `PriorityLabel`, whose members are strings. */
  datatype PriorityLabel = Low | Medium | High {
    /** The string the enum member stands for. */
    function Value(): string {
      match this
      case Low => "Low"
      case Medium => "Medium"
      case High => "High"
    }
  }

  /** A priority as the application carries it: the label value, a display
      label (`label` in the source; the word is reserved in Dafny) and a
      colour class (the field is spelt `coloer` in the source). */
  datatype Priority = Priority(value: PriorityLabel, caption: string, coloer: string)

  /** A to-do category; only its name is used. */
  datatype Category = Category(name: string)

  /** The full to-do record of the newer components. */
  datatype TodoItem = TodoItem(
    id: int,
    text: string,
    completed: bool,
    category: string,
    priority: Priority,
    createdAt: string,
    tags: seq<string>,
    completedAt: Option<string>,
    modifiedAt: Option<string>,
    dueDate: Option<string>)

  /** The record the local list service creates and stores: an id, the text
      and the completion flag, nothing else. */
  datatype Todo = Todo(id: int, text: string, completed: bool)

  /** A signed-in user as the session holds it. */
  datatype User = User(id: string, email: string, name: string, createdAt: string)

  /** A user as the local account table stores it, with its password hash. */
  datatype StoredUser = StoredUser(id: string, email: string, name: string, createdAt: string, passwordHash: string) {
    /** The record without its hash: what the session is given. */
    function Public(): (u: User)
      ensures u.id == id && u.email == email && u.name == name
    {
      User(id, email, name, createdAt)
    }
  }

  datatype UserCredentials = UserCredentials(email: string, password: string)

  datatype UserRegistration = UserRegistration(email: string, password: string, name: string, confirmPassword: string)

  /** Both fields are optional; an empty string counts as not given. */
  datatype UserUpdate = UserUpdate(name: Option<string>, email: Option<string>)

  datatype PasswordChange = PasswordChange(currentPassword: string, newPassword: string, confirmPassword: string)
}

=== FILE: seqs.dfy ===
/** Order-preserving filtering and counting over sequences: the model of
    JavaScript's `Array.prototype.filter` and of `filter(...).length`. */
module Seqs {

  /** The elements of `s` that satisfy `p`, in their original order. */
  function Filter<T>(s: seq<T>, p: T -> bool): (r: seq<T>)
    ensures |r| <= |s|
    ensures forall k :: 0 <= k < |r| ==> p(r[k])
  {
    if s == [] then []
    else if p(s[0]) then [s[0]] + Filter(s[1..], p)
    else Filter(s[1..], p)
  }

  /** The number of elements of `s` that satisfy `p`. */
  function Count<T>(s: seq<T>, p: T -> bool): (n: nat)
    ensures n <= |s|
  {
    if s == [] then 0
    else (if p(s[0]) then 1 else 0) + Count(s[1..], p)
  }

  /** `Array.prototype.findIndex`: the first position whose element
      satisfies `p`, or -1 when there is none. */
  function FirstIndex<T>(s: seq<T>, p: T -> bool): (i: int)
    ensures -1 <= i < |s|
    ensures i == -1 <==> forall k :: 0 <= k < |s| ==> !p(s[k])
    ensures 0 <= i ==> p(s[i]) && forall k :: 0 <= k < i ==> !p(s[k])
  {
    if s == [] then -1
    else if p(s[0]) then 0
    else var j := FirstIndex(s[1..], p); if j == -1 then -1 else j + 1
  }

  /** `a` can be obtained from `b` by deleting elements: `a` is an
      order-preserving subsequence of `b`. */
  predicate IsSubsequence<T(==)>(a: seq<T>, b: seq<T>)
    decreases |b|
  {
    if a == [] then true
    else if b == [] then false
    else (a[0] == b[0] && IsSubsequence(a[1..], b[1..])) || IsSubsequence(a, b[1..])
  }

  lemma {:induction false} FilterIsSubsequence<T>(s: seq<T>, p: T -> bool)
    ensures IsSubsequence(Filter(s, p), s)
  {
    if s != [] {
      FilterIsSubsequence(s[1..], p);
      if p(s[0]) {
        assert Filter(s, p) == [s[0]] + Filter(s[1..], p);
        assert Filter(s, p)[1..] == Filter(s[1..], p);
      } else {
        var r := Filter(s, p);
        assert r == Filter(s[1..], p);
        if r != [] {
          assert IsSubsequence(r, s[1..]);
        }
      }
    }
  }

  /** An element is kept exactly when it occurs in `s` and satisfies `p`. */
  lemma {:induction false} FilterMembership<T>(s: seq<T>, p: T -> bool, x: T)
    ensures x in Filter(s, p) <==> x in s && p(x)
  {
    if s != [] {
      FilterMembership(s[1..], p, x);
      assert x in s <==> x == s[0] || x in s[1..];
    }
  }

  /** Filtering keeps exactly as many elements as satisfy `p`. */
  lemma {:induction false} FilterLength<T>(s: seq<T>, p: T -> bool)
    ensures |Filter(s, p)| == Count(s, p)
  {
    if s != [] {
      FilterLength(s[1..], p);
    }
  }

  /** A filter whose predicate holds of every element changes nothing. */
  lemma {:induction false} FilterKeepsAll<T>(s: seq<T>, p: T -> bool)
    requires forall k :: 0 <= k < |s| ==> p(s[k])
    ensures Filter(s, p) == s
  {
    if s != [] {
      FilterKeepsAll(s[1..], p);
    }
  }

  /** Filters whose predicates agree on the elements of `s` agree. */
  lemma {:induction false} FilterCongruent<T>(s: seq<T>, p: T -> bool, q: T -> bool)
    requires forall k :: 0 <= k < |s| ==> p(s[k]) == q(s[k])
    ensures Filter(s, p) == Filter(s, q)
  {
    if s != [] {
      FilterCongruent(s[1..], p, q);
    }
  }

  /** Two successive filters are one filter by the conjunction. */
  lemma {:induction false} FilterFusion<T>(s: seq<T>, p: T -> bool, q: T -> bool, r: T -> bool)
    requires forall k :: 0 <= k < |s| ==> r(s[k]) == (p(s[k]) && q(s[k]))
    ensures Filter(Filter(s, p), q) == Filter(s, r)
  {
    if s != [] {
      FilterFusion(s[1..], p, q, r);
      if p(s[0]) {
        assert Filter(s, p) == [s[0]] + Filter(s[1..], p);
        assert Filter(s, p)[1..] == Filter(s[1..], p);
      }
    }
  }

  /** Filtering twice by the same predicate is filtering once. */
  lemma FilterIdempotent<T>(s: seq<T>, p: T -> bool)
    ensures Filter(Filter(s, p), p) == Filter(s, p)
  {
    FilterKeepsAll(Filter(s, p), p);
  }

  /** Every element satisfies exactly one of `p` and its complement `q`, so
      the two counts add up to the length. */
  lemma {:induction false} CountComplement<T>(s: seq<T>, p: T -> bool, q: T -> bool)
    requires forall k :: 0 <= k < |s| ==> q(s[k]) == !p(s[k])
    ensures Count(s, p) + Count(s, q) == |s|
  {
    if s != [] {
      CountComplement(s[1..], p, q);
    }
  }

  /** `Count` is zero exactly when no element satisfies the predicate, and
      the length exactly when every element does. */
  lemma {:induction false} CountExtremes<T>(s: seq<T>, p: T -> bool)
    ensures Count(s, p) == 0 <==> forall k :: 0 <= k < |s| ==> !p(s[k])
    ensures Count(s, p) == |s| <==> forall k :: 0 <= k < |s| ==> p(s[k])
  {
    if s != [] {
      CountExtremes(s[1..], p);
      assert forall k :: 1 <= k < |s| ==> s[k] == s[1..][k - 1];
    }
  }
}

=== FILE: storage.dfy ===
/** The browser's `localStorage`, shared by the list service and the account
    service: a map from key to stored value. The JSON text itself is not
    modelled; a slot holds the value that was serialised into it, so reading
    a slot back gives exactly what was written. */
module Storage {
  import opened Models

  /** What the application serialises into a slot. */
  datatype StoredValue =
    | TodoList(todos: seq<Todo>)
    | UserList(users: seq<StoredUser>)
    | UserRecord(user: User)

  class LocalStorage {
    var slots: map<string, StoredValue>

    constructor (initial: map<string, StoredValue>)
      ensures slots == initial
    {
      slots := initial;
    }

    /** `localStorage.setItem(key, value)`. */
    method SetItem(key: string, value: StoredValue)
      modifies this
      ensures slots == old(slots)[key := value]
    {
      slots := slots[key := value];
    }

    /** `localStorage.removeItem(key)`: a missing key is not an error. */
    method RemoveItem(key: string)
      modifies this
      ensures slots == old(slots) - {key}
    {
      slots := slots - {key};
    }
  }
}

=== FILE: store_api.dfy ===
/** The list service as the newer components (src/app/components/todo and
    src/app/components/todo-form) call it. That version of the service is
    not part of this model, so it is represented by its interface only: the
    list, category and priority signals it exposes, and the log of requests
    made to it. Its methods promise nothing about how a request changes the
    list, so nothing proved about a component depends on that. */
module StoreApi {
  import opened Models

  /** What an add request carries. */
  datatype TodoDraft = TodoDraft(
    text: string,
    category: string,
    priority: Option<Priority>,
    dueDate: Option<string>,
    tags: seq<string>,
    completed: bool)

  /** What an update request carries: the text and the flag are not among
      them. */
  datatype TodoPatch = TodoPatch(
    category: string,
    priority: Option<Priority>,
    dueDate: Option<string>,
    tags: seq<string>)

  datatype Request =
    | AddRequest(draft: TodoDraft)
    | UpdateRequest(id: int, patch: TodoPatch)
    | ToggleRequest(id: int)
    | DeleteRequest(id: int)
    | ClearCompletedRequest

  class TodoServiceApi {
    var todos: seq<TodoItem>
    var categories: seq<Category>
    var priorities: seq<Priority>
    /** Every request made so far, oldest first. */
    var requests: seq<Request>

    constructor (todos: seq<TodoItem>, categories: seq<Category>, priorities: seq<Priority>)
      ensures this.todos == todos && this.categories == categories && this.priorities == priorities
      ensures requests == []
    {
      this.todos := todos;
      this.categories := categories;
      this.priorities := priorities;
      requests := [];
    }

    method AddTodo(draft: TodoDraft)
      modifies this
      ensures requests == old(requests) + [AddRequest(draft)]
      ensures categories == old(categories) && priorities == old(priorities)
    {
      requests := requests + [AddRequest(draft)];
    }

    method UpdateTodo(id: int, patch: TodoPatch)
      modifies this
      ensures requests == old(requests) + [UpdateRequest(id, patch)]
      ensures categories == old(categories) && priorities == old(priorities)
    {
      requests := requests + [UpdateRequest(id, patch)];
    }

    method ToggleTodo(id: int)
      modifies this
      ensures requests == old(requests) + [ToggleRequest(id)]
      ensures categories == old(categories) && priorities == old(priorities)
    {
      requests := requests + [ToggleRequest(id)];
    }

    method DeleteTodo(id: int)
      modifies this
      ensures requests == old(requests) + [DeleteRequest(id)]
      ensures categories == old(categories) && priorities == old(priorities)
    {
      requests := requests + [DeleteRequest(id)];
    }

    method ClearCompleted()
      modifies this
      ensures requests == old(requests) + [ClearCompletedRequest]
      ensures categories == old(categories) && priorities == old(priorities)
    {
      requests := requests + [ClearCompletedRequest];
    }
  }
}

=== FILE: text.dfy ===
/** The JavaScript string operations the application relies on: `trim`,
    `toLowerCase` (restricted to ASCII), `includes`, `split` on one
    character, `join` and `indexOf`. */
module Text {

  /** ECMAScript's WhiteSpace and LineTerminator code points: exactly what
      `String.prototype.trim` removes. */
  const WHITESPACE: set<char> := {
    ' ', '\t', '\n', '\r', '\U{000B}', '\U{000C}', '\U{00A0}', '\U{1680}',
    '\U{2000}', '\U{2001}', '\U{2002}', '\U{2003}', '\U{2004}', '\U{2005}',
    '\U{2006}', '\U{2007}', '\U{2008}', '\U{2009}', '\U{200A}',
    '\U{2028}', '\U{2029}', '\U{202F}', '\U{205F}', '\U{3000}', '\U{FEFF}'
  }

  predicate IsWhitespace(c: char) {
    c in WHITESPACE
  }

  /** Neither end of `s` is whitespace. */
  predicate IsTrimmed(s: string) {
    s == [] || (!IsWhitespace(s[0]) && !IsWhitespace(s[|s| - 1]))
  }

  predicate AllWhitespace(s: string) {
    forall k :: 0 <= k < |s| ==> IsWhitespace(s[k])
  }

  /** How many whitespace characters `s` starts with. */
  function LeadingBlanks(s: string): (n: nat)
    ensures n <= |s|
  {
    if s != [] && IsWhitespace(s[0]) then 1 + LeadingBlanks(s[1..]) else 0
  }

  /** How many whitespace characters `s` ends with. */
  function TrailingBlanks(s: string): (n: nat)
    ensures n <= |s|
  {
    if s != [] && IsWhitespace(s[|s| - 1]) then 1 + TrailingBlanks(s[..|s| - 1]) else 0
  }

  /** `String.prototype.trim`: `s` without its leading and trailing
      whitespace. */
  function Trim(s: string): string {
    var t := s[LeadingBlanks(s)..];
    t[..|t| - TrailingBlanks(t)]
  }

  /** The leading run is whitespace and is followed by a character that is
      not. */
  lemma {:induction false} LeadingBlanksRun(s: string)
    ensures AllWhitespace(s[..LeadingBlanks(s)])
    ensures LeadingBlanks(s) < |s| ==> !IsWhitespace(s[LeadingBlanks(s)])
  {
    if s != [] && IsWhitespace(s[0]) {
      LeadingBlanksRun(s[1..]);
      var n := LeadingBlanks(s);
      assert forall k :: 0 < k < n ==> s[k] == s[1..][..n - 1][k - 1];
      if n < |s| {
        assert s[n] == s[1..][n - 1];
      }
    }
  }

  /** The trailing run is whitespace and is preceded by a character that is
      not. */
  lemma {:induction false} TrailingBlanksRun(s: string)
    ensures AllWhitespace(s[|s| - TrailingBlanks(s)..])
    ensures TrailingBlanks(s) < |s| ==> !IsWhitespace(s[|s| - TrailingBlanks(s) - 1])
  {
    if s != [] && IsWhitespace(s[|s| - 1]) {
      var front := s[..|s| - 1];
      TrailingBlanksRun(front);
      var n := TrailingBlanks(s);
      assert forall k :: |s| - n <= k < |s| - 1 ==> s[k] == front[|front| - (n - 1)..][k - (|s| - n)];
      if n < |s| {
        assert s[|s| - n - 1] == front[|front| - (n - 1) - 1];
      }
    }
  }

  /** The result of `trim` is a contiguous piece of `s`, trimmed at both
      ends. */
  lemma TrimIsSlice(s: string)
    ensures IsTrimmed(Trim(s))
    ensures exists i, j :: 0 <= i <= j <= |s| && Trim(s) == s[i..j]
  {
    var i := LeadingBlanks(s);
    var t := s[i..];
    var m := TrailingBlanks(t);
    var r := t[..|t| - m];
    assert r == s[i..i + |t| - m];
    if r != [] {
      LeadingBlanksRun(s);
      TrailingBlanksRun(t);
      assert r[0] == s[i];
      assert r[|r| - 1] == t[|t| - m - 1];
    }
  }

  /** A run of whitespace is all leading blanks. */
  lemma {:induction false} BlankRun(w: string, s: string)
    requires AllWhitespace(w)
    requires s == [] || !IsWhitespace(s[0])
    ensures LeadingBlanks(w + s) == |w|
  {
    if w == [] {
      assert w + s == s;
    } else {
      assert (w + s)[1..] == w[1..] + s;
      BlankRun(w[1..], s);
    }
  }

  /** `trim` gives the empty string exactly when `s` is all whitespace:
      JavaScript's `!s.trim()`. */
  lemma TrimEmptyIffBlank(s: string)
    ensures Trim(s) == [] <==> AllWhitespace(s)
  {
    var i := LeadingBlanks(s);
    var t := s[i..];
    if AllWhitespace(s) {
      BlankRun(s, []);
      assert s + [] == s;
    }
    if Trim(s) == [] {
      LeadingBlanksRun(s);
      TrailingBlanksRun(t);
      assert s[..i] == s;
    }
  }

  /** A string that is already trimmed is left alone. */
  lemma TrimmedFixed(s: string)
    requires IsTrimmed(s)
    ensures Trim(s) == s
  {
    assert s[0..] == s;
    assert s[..|s|] == s;
  }

  /** Leading whitespace in front of a trimmed, non-empty string is removed. */
  lemma TrimDropsPrefix(w: string, s: string)
    requires AllWhitespace(w)
    requires s != [] && IsTrimmed(s)
    ensures Trim(w + s) == s
  {
    BlankRun(w, s);
    assert (w + s)[|w|..] == s;
    TrimmedFixed(s);
    assert s[0..] == s;
  }

  /** ASCII lower-casing of one character: `A`..`Z` map to `a`..`z`. */
  function LowerChar(c: char): char {
    if 'A' <= c <= 'Z' then (c as int + 32) as char else c
  }

  /** `toLowerCase` restricted to ASCII letters. */
  function ToLower(s: string): (r: string)
    ensures |r| == |s|
    ensures forall k :: 0 <= k < |s| ==> r[k] == LowerChar(s[k])
  {
    seq(|s|, k requires 0 <= k < |s| => LowerChar(s[k]))
  }

  /** `needle` occurs in `hay` starting at offset `i`. */
  predicate OccursAt(hay: string, needle: string, i: int) {
    0 <= i && i + |needle| <= |hay| && hay[i..i + |needle|] == needle
  }

  /** `hay.includes(needle)`, written as a scan over the offsets. */
  predicate Contains(hay: string, needle: string)
    decreases |hay|
  {
    needle <= hay || (hay != [] && Contains(hay[1..], needle))
  }

  /** An occurrence in the tail is an occurrence one further along. */
  lemma OccursInTail(hay: string, needle: string, i: int)
    requires hay != [] && 0 <= i
    ensures OccursAt(hay[1..], needle, i) <==> OccursAt(hay, needle, i + 1)
  {
    if i + 1 + |needle| <= |hay| {
      assert hay[1..][i..i + |needle|] == hay[i + 1..i + 1 + |needle|];
    }
  }

  /** `Contains` holds exactly when `needle` occurs at some offset. */
  lemma {:induction false} ContainsIffOccurs(hay: string, needle: string)
    ensures Contains(hay, needle) <==> exists i :: OccursAt(hay, needle, i)
    decreases |hay|
  {
    if needle <= hay {
      assert OccursAt(hay, needle, 0);
    } else if hay != [] {
      ContainsIffOccurs(hay[1..], needle);
      if exists i :: OccursAt(hay, needle, i) {
        var i :| OccursAt(hay, needle, i);
        assert i != 0;
        OccursInTail(hay, needle, i - 1);
        assert OccursAt(hay[1..], needle, i - 1);
      }
      if Contains(hay[1..], needle) {
        var i :| OccursAt(hay[1..], needle, i);
        OccursInTail(hay, needle, i);
        assert OccursAt(hay, needle, i + 1);
      }
    } else {
      assert forall i :: OccursAt(hay, needle, i) ==> needle == [];
    }
  }

  /** `s.indexOf(x)`: the first position of `x` in `s`, or -1. */
  function IndexOf<T(==)>(s: seq<T>, x: T): (i: int)
    ensures -1 <= i < |s|
    ensures i == -1 <==> x !in s
    ensures 0 <= i ==> s[i] == x && x !in s[..i]
  {
    if s == [] then -1
    else if s[0] == x then 0
    else var j := IndexOf(s[1..], x); if j == -1 then -1 else j + 1
  }

  /** `s.split(d)` for a one-character separator `d`: always at least one
      piece, and `""` splits into `[""]`. */
  function Split(s: string, d: char): (pieces: seq<string>)
    ensures |pieces| >= 1
    ensures forall k :: 0 <= k < |pieces| ==> d !in pieces[k]
  {
    if s == [] then [[]]
    else
      var rest := Split(s[1..], d);
      if s[0] == d then [[]] + rest
      else [[s[0]] + rest[0]] + rest[1..]
  }

  /** `parts.join(sep)`. */
  function Join(parts: seq<string>, sep: string): string {
    if parts == [] then []
    else if |parts| == 1 then parts[0]
    else parts[0] + sep + Join(parts[1..], sep)
  }

  /** A string free of the separator is one piece. */
  lemma {:induction false} SplitNoSeparator(s: string, d: char)
    requires d !in s
    ensures Split(s, d) == [s]
  {
    if s != [] {
      SplitNoSeparator(s[1..], d);
      assert [s[0]] + s[1..] == s;
    }
  }

  /** Splitting at the first separator. */
  lemma {:induction false} SplitAtSeparator(a: string, d: char, b: string)
    requires d !in a
    ensures Split(a + [d] + b, d) == [a] + Split(b, d)
  {
    if a == [] {
      assert a + [d] + b == [d] + b;
      assert ([d] + b)[1..] == b;
    } else {
      var s := a + [d] + b;
      assert s[0] == a[0] && s[1..] == a[1..] + [d] + b;
      SplitAtSeparator(a[1..], d, b);
      assert [a[0]] + a[1..] == a;
    }
  }

  /** A non-separator character in front joins the first piece. */
  lemma SplitCons(c: char, s: string, d: char)
    requires c != d
    ensures Split([c] + s, d) == [[c] + Split(s, d)[0]] + Split(s, d)[1..]
  {
    assert ([c] + s)[1..] == s;
  }
}

=== FILE: todo_form.dfy ===
/** The add/edit form (src/app/components/todo-form/todo-form.ts): five
    string controls, the edit mode that disables the text control, and the
    request a submit sends to the list service. The outputs the form emits
    are recorded in order. */
module TodoFormView {
  import opened Models
  import opened Seqs
  import opened Text
  import opened StoreApi

  /** The raw values of the form's controls (`getRawValue`, so the disabled
      text control is included). */
  datatype FormValue = FormValue(text: string, category: string, priority: string, dueDate: string, tags: string)

  /** The outputs `todoAdded`, `todoUpdated` and `cancelEdit`. */
  datatype FormEvent = TodoAdded | TodoUpdated | CancelEdit

  /** The controls' values after construction and after `resetForm`. */
  function ResetValue(): FormValue {
    FormValue("", "Work", "Medium", "", "")
  }

  /** `form.invalid`: only the text control has validators (required and a
      minimum length of one), and a disabled control is not validated, so the
      form is invalid exactly when the text control is enabled and empty.
      Whitespace counts as content here. */
  predicate FormInvalid(v: FormValue, textEnabled: bool) {
    textEnabled && v.text == []
  }

  /** Every piece of a split, trimmed. */
  function TrimAll(pieces: seq<string>): (r: seq<string>)
    ensures |r| == |pieces|
    ensures forall k :: 0 <= k < |pieces| ==> r[k] == Trim(pieces[k])
  {
    if pieces == [] then [] else [Trim(pieces[0])] + TrimAll(pieces[1..])
  }

  predicate NonEmpty(s: string) {
    s != []
  }

  /** A tag as the form produces it: not empty, no surrounding whitespace and
      no comma. */
  predicate CleanTag(t: string) {
    t != [] && IsTrimmed(t) && ',' !in t
  }

  /** `tags.split(',').map(tag => tag.trim()).filter(tag => tag)`. */
  function ParseTags(s: string): seq<string> {
    Filter(TrimAll(Split(s, ',')), NonEmpty)
  }

  /** Every tag the form produces is clean. */
  lemma ParseTagsClean(s: string)
    ensures forall k :: 0 <= k < |ParseTags(s)| ==> CleanTag(ParseTags(s)[k])
  {
    var pieces := Split(s, ',');
    var trimmed := TrimAll(pieces);
    forall t | t in ParseTags(s)
      ensures CleanTag(t)
    {
      FilterMembership(trimmed, NonEmpty, t);
      var k :| 0 <= k < |trimmed| && trimmed[k] == t;
      TrimClean(pieces[k]);
    }
  }

  /** Trimming a piece without a comma gives a trimmed text without a
      comma. */
  lemma TrimClean(piece: string)
    requires ',' !in piece
    ensures IsTrimmed(Trim(piece)) && ',' !in Trim(piece)
  {
    TrimIsSlice(piece);
    var i, j :| 0 <= i <= j <= |piece| && Trim(piece) == piece[i..j];
    forall c | c in piece[i..j]
      ensures c in piece
    {
      var m :| i <= m < j && piece[m] == c;
    }
  }

  /** The pieces of a tag list joined the way the edit form shows it, with
      some leading whitespace `w` in front, trim back to the tags. */
  lemma {:induction false} TrimSplitJoin(w: string, tags: seq<string>)
    requires AllWhitespace(w) && ',' !in w
    requires tags != []
    requires forall k :: 0 <= k < |tags| ==> CleanTag(tags[k])
    ensures TrimAll(Split(w + Join(tags, ", "), ',')) == tags
    decreases |tags|
  {
    TrimDropsPrefix(w, tags[0]);
    assert ',' !in w + tags[0];
    if |tags| == 1 {
      SplitNoSeparator(w + tags[0], ',');
    } else {
      var rest := tags[1..];
      var tail := " " + Join(rest, ", ");
      JoinStep(w, tags);
      SplitAtSeparator(w + tags[0], ',', tail);
      TrimSplitJoin(" ", rest);
      TrimAllCons(w + tags[0], Split(tail, ','));
    }
  }

  lemma JoinStep(w: string, tags: seq<string>)
    requires |tags| > 1
    ensures w + Join(tags, ", ") == (w + tags[0]) + [','] + (" " + Join(tags[1..], ", "))
  {
  }

  lemma TrimAllCons(piece: string, pieces: seq<string>)
    ensures TrimAll([piece] + pieces) == [Trim(piece)] + TrimAll(pieces)
  {
    assert ([piece] + pieces)[1..] == pieces;
  }


  /** Showing a tag list as `tags.join(', ')` and parsing it back gives the
      same list, provided each tag is clean. */
  lemma TagsRoundTrip(tags: seq<string>)
    requires forall k :: 0 <= k < |tags| ==> CleanTag(tags[k])
    ensures ParseTags(Join(tags, ", ")) == tags
  {
    if tags == [] {
      assert Split([], ',') == [[]];
      assert TrimAll([[]]) == [[]];
    } else {
      TrimSplitJoin([], tags);
      assert [] + Join(tags, ", ") == Join(tags, ", ");
      FilterKeepsAll(tags, NonEmpty);
    }
  }

  /** `find(p => p.value === value)`: the first priority with that value. */
  function FirstWithValue(priorities: seq<Priority>, value: string): (r: Option<Priority>)
    ensures r.None? <==> forall k :: 0 <= k < |priorities| ==> priorities[k].value.Value() != value
    ensures r.Some? ==> exists i :: 0 <= i < |priorities| && priorities[i] == r.value && r.value.value.Value() == value
                                    && forall k :: 0 <= k < i ==> priorities[k].value.Value() != value
  {
    var i := FirstIndex(priorities, (p: Priority) => p.value.Value() == value);
    if i == -1 then None else Some(priorities[i])
  }

  /** The priority a submit sends: the first one with the chosen value, else
      the first priority of all, else none. */
  function FindPriority(priorities: seq<Priority>, value: string): (r: Option<Priority>)
    ensures r.None? <==> |priorities| == 0
    ensures r.Some? ==> r.value in priorities
    ensures (exists k :: 0 <= k < |priorities| && priorities[k].value.Value() == value)
            ==> exists i :: 0 <= i < |priorities| && r == Some(priorities[i]) && priorities[i].value.Value() == value
                            && forall k :: 0 <= k < i ==> priorities[k].value.Value() != value
    ensures (forall k :: 0 <= k < |priorities| ==> priorities[k].value.Value() != value) && |priorities| > 0
            ==> r == Some(priorities[0])
  {
    var found := FirstWithValue(priorities, value);
    if found.Some? then found
    else if |priorities| > 0 then Some(priorities[0])
    else None
  }

  /** Different labels stand for different strings. */
  lemma LabelValueInjective(a: PriorityLabel, b: PriorityLabel)
    requires a.Value() == b.Value()
    ensures a == b
  {
    assert a.Value()[0] == b.Value()[0];
  }

  /** With distinct values, choosing a listed priority's value finds that
      priority. */
  lemma FindListedPriority(priorities: seq<Priority>, p: Priority)
    requires forall i, j :: 0 <= i < j < |priorities| ==> priorities[i].value != priorities[j].value
    requires p in priorities
    ensures FindPriority(priorities, p.value.Value()) == Some(p)
  {
    var j :| 0 <= j < |priorities| && priorities[j] == p;
    var i :| 0 <= i < |priorities| && FindPriority(priorities, p.value.Value()) == Some(priorities[i])
             && priorities[i].value.Value() == p.value.Value()
             && forall k :: 0 <= k < i ==> priorities[k].value.Value() != p.value.Value();
    LabelValueInjective(priorities[i].value, p.value);
  }

  /** `formValue.dueDate ? new Date(formValue.dueDate) : undefined`, with a
      date kept as its day string. */
  function DueDate(text: string): (d: Option<string>)
    ensures d.None? <==> text == []
    ensures d.Some? ==> d.value == text
  {
    if text == [] then None else Some(text)
  }

  /** What `ngOnInit` writes into the controls for the item being edited. */
  function EditValue(todo: TodoItem): FormValue {
    FormValue(
      todo.text,
      todo.category,
      todo.priority.value.Value(),
      if todo.dueDate.Some? then todo.dueDate.value else "",
      Join(todo.tags, ", "))
  }

  /** The request a valid submit sends: an update of the edited item's
      category, priority, due date and tags when editing, else an add with
      the trimmed text. */
  function Submission(v: FormValue, isEditing: bool, editingTodo: Option<TodoItem>, priorities: seq<Priority>): (r: Request)
    ensures r.UpdateRequest? <==> isEditing && editingTodo.Some?
    ensures r.UpdateRequest? ==> r.id == editingTodo.value.id
    ensures r.AddRequest? ==> r.draft.text == Trim(v.text) && IsTrimmed(r.draft.text) && !r.draft.completed
    ensures r.AddRequest? || r.UpdateRequest?
    ensures r.UpdateRequest? ==>
      r.patch == TodoPatch(v.category, FindPriority(priorities, v.priority), DueDate(v.dueDate), ParseTags(v.tags))
    ensures r.AddRequest? ==>
      r.draft == TodoDraft(Trim(v.text), v.category, FindPriority(priorities, v.priority), DueDate(v.dueDate), ParseTags(v.tags), false)
  {
    TrimIsSlice(v.text);
    var tags := ParseTags(v.tags);
    var priority := FindPriority(priorities, v.priority);
    if isEditing && editingTodo.Some? then
      UpdateRequest(editingTodo.value.id, TodoPatch(v.category, priority, DueDate(v.dueDate), tags))
    else
      AddRequest(TodoDraft(Trim(v.text), v.category, priority, DueDate(v.dueDate), tags, false))
  }

  /** Every tag a submit sends is clean. */
  lemma SubmittedTagsClean(v: FormValue, isEditing: bool, editingTodo: Option<TodoItem>, priorities: seq<Priority>)
    ensures var r := Submission(v, isEditing, editingTodo, priorities);
            var tags := if r.AddRequest? then r.draft.tags else r.patch.tags;
            forall k :: 0 <= k < |tags| ==> CleanTag(tags[k])
  {
    ParseTagsClean(v.tags);
  }

  /** Opening the form on an item and submitting it untouched asks for an
      update that leaves the item's category, priority, due date and tags as
      they were, when its tags are clean, its due date is a non-empty day,
      and its priority is one of the listed ones, which have distinct
      values. */
  lemma EditRoundTrip(todo: TodoItem, priorities: seq<Priority>)
    requires forall k :: 0 <= k < |todo.tags| ==> CleanTag(todo.tags[k])
    requires todo.dueDate != Some([])
    requires forall i, j :: 0 <= i < j < |priorities| ==> priorities[i].value != priorities[j].value
    requires todo.priority in priorities
    ensures Submission(EditValue(todo), true, Some(todo), priorities)
            == UpdateRequest(todo.id, TodoPatch(todo.category, Some(todo.priority), todo.dueDate, todo.tags))
  {
    TagsRoundTrip(todo.tags);
    FindListedPriority(priorities, todo.priority);
  }

  /** A text of blanks passes validation and is submitted as the empty
      text. */
  lemma BlankTextIsAdded(v: FormValue, priorities: seq<Priority>)
    requires v.text != [] && AllWhitespace(v.text)
    ensures !FormInvalid(v, true)
    ensures Submission(v, false, None, priorities).draft.text == []
  {
    TrimEmptyIffBlank(v.text);
  }

  class TodoForm {
    const service: TodoServiceApi
    /** The `editingTodo` input: the item to edit, if any. */
    var editingTodo: Option<TodoItem>
    var value: FormValue
    var textEnabled: bool
    var isEditing: bool
    /** The outputs emitted so far, oldest first. */
    var events: seq<FormEvent>

    constructor (service: TodoServiceApi, editingTodo: Option<TodoItem>)
      ensures this.service == service && this.editingTodo == editingTodo
      ensures value == ResetValue() && textEnabled && !isEditing && events == []
    {
      this.service := service;
      this.editingTodo := editingTodo;
      value := ResetValue();
      textEnabled := true;
      isEditing := false;
      events := [];
    }

    /** `ngOnInit`: with an item to edit, fill the controls from it, lock the
        text and enter edit mode; otherwise change nothing. */
    method NgOnInit()
      modifies this`value, this`textEnabled, this`isEditing
      ensures editingTodo.None? ==> value == old(value) && textEnabled == old(textEnabled) && isEditing == old(isEditing)
      ensures editingTodo.Some? ==> value == EditValue(editingTodo.value) && !textEnabled && isEditing
    {
      if editingTodo.Some? {
        var todo := editingTodo.value;
        isEditing := true;
        value := EditValue(todo);
        textEnabled := false;
      }
    }

    /** `onSubmit`: an invalid form changes nothing; a valid one sends one
        request to the service, emits the matching output and resets. */
    method OnSubmit()
      modifies this`value, this`textEnabled, this`isEditing, this`events, service
      ensures FormInvalid(old(value), old(textEnabled)) ==>
        && value == old(value) && textEnabled == old(textEnabled) && isEditing == old(isEditing)
        && events == old(events) && service.requests == old(service.requests)
      ensures !FormInvalid(old(value), old(textEnabled)) ==>
        var r := Submission(old(value), old(isEditing), editingTodo, old(service.priorities));
        && service.requests == old(service.requests) + [r]
        && events == old(events) + [if r.UpdateRequest? then TodoUpdated else TodoAdded]
        && value == ResetValue() && textEnabled && !isEditing
      ensures service.priorities == old(service.priorities) && service.categories == old(service.categories)
    {
      if FormInvalid(value, textEnabled) {
        return;
      }
      var r := Submission(value, isEditing, editingTodo, service.priorities);
      if r.UpdateRequest? {
        service.UpdateTodo(r.id, r.patch);
        events := events + [TodoUpdated];
      } else {
        service.AddTodo(r.draft);
        events := events + [TodoAdded];
      }
      ResetForm();
    }

    /** `resetForm`: defaults back, text unlocked, add mode. */
    method ResetForm()
      modifies this`value, this`textEnabled, this`isEditing
      ensures value == ResetValue() && textEnabled && !isEditing
    {
      value := ResetValue();
      textEnabled := true;
      isEditing := false;
    }

    /** `onCancel`: reset, then emit `cancelEdit`. */
    method OnCancel()
      modifies this`value, this`textEnabled, this`isEditing, this`events
      ensures value == ResetValue() && textEnabled && !isEditing
      ensures events == old(events) + [CancelEdit]
    {
      ResetForm();
      events := events + [CancelEdit];
    }
  }
}

=== FILE: todo_store.dfy ===
/** The local to-do list service (src/app/service/todo.ts): an ordered list of
    records kept in memory, mirrored after every change into the storage slot
    `todos`. The clock that `addTodo` reads is a parameter. */
module TodoStore {
  import opened Models
  import opened Seqs
  import opened Storage

  /** The storage key the list is kept under. */
  const TODOS_KEY: string := "todos"

  /** What `loadTodos` reads back: the list in the `todos` slot, or the empty
      list when there is none. */
  function StoredTodos(slots: map<string, StoredValue>): seq<Todo> {
    if TODOS_KEY in slots && slots[TODOS_KEY].TodoList? then slots[TODOS_KEY].todos else []
  }

  /** `todos.findIndex(t => t.id === id)`: the first position holding `id`,
      or -1. */
  function IndexOfId(todos: seq<Todo>, id: int): (i: int)
    ensures -1 <= i < |todos|
    ensures i == -1 <==> forall k :: 0 <= k < |todos| ==> todos[k].id != id
    ensures 0 <= i ==> todos[i].id == id && forall k :: 0 <= k < i ==> todos[k].id != id
  {
    FirstIndex(todos, (t: Todo) => t.id == id)
  }

  /** The list after `toggleTodo(id)`: the first record with that id has its
      flag flipped, every other record is as it was. */
  function Toggled(todos: seq<Todo>, id: int): (r: seq<Todo>)
    ensures |r| == |todos|
    ensures IndexOfId(todos, id) == -1 ==> r == todos
    ensures forall k :: 0 <= k < |todos| && k != IndexOfId(todos, id) ==> r[k] == todos[k]
    ensures var i := IndexOfId(todos, id);
            0 <= i ==> r[i] == todos[i].(completed := !todos[i].completed)
  {
    var i := IndexOfId(todos, id);
    if i == -1 then todos else todos[i := todos[i].(completed := !todos[i].completed)]
  }

  /** The list after `deleteTodo(id)`. */
  function Deleted(todos: seq<Todo>, id: int): seq<Todo> {
    Filter(todos, (t: Todo) => t.id != id)
  }

  predicate IsActive(t: Todo) {
    !t.completed
  }

  /** The list after `clearCompleted()`. */
  function Cleared(todos: seq<Todo>): seq<Todo> {
    Filter(todos, IsActive)
  }

  /** The ids `addTodo` hands out in one session, given the clock readings of
      its calls: the k-th call uses the counter value k. */
  function AssignedIds(clocks: seq<int>): (ids: seq<int>)
    ensures |ids| == |clocks|
    ensures forall k :: 0 <= k < |clocks| ==> ids[k] == clocks[k] + k
  {
    seq(|clocks|, k requires 0 <= k < |clocks| => clocks[k] + k)
  }

  /** Toggling the same id twice restores the list. */
  lemma ToggleTwice(todos: seq<Todo>, id: int)
    ensures Toggled(Toggled(todos, id), id) == todos
  {
    var once := Toggled(todos, id);
    assert forall k :: 0 <= k < |todos| ==> once[k].id == todos[k].id;
    assert IndexOfId(once, id) == IndexOfId(todos, id);
  }

  /** Deletion keeps exactly the records whose id differs, in their
      original relative order. */
  lemma DeletedKeepsOthers(todos: seq<Todo>, id: int)
    ensures IsSubsequence(Deleted(todos, id), todos)
    ensures forall t :: t in Deleted(todos, id) <==> t in todos && t.id != id
    ensures |Deleted(todos, id)| == |todos| - Count(todos, (t: Todo) => t.id == id)
  {
    FilterIsSubsequence(todos, (t: Todo) => t.id != id);
    forall t
      ensures t in Deleted(todos, id) <==> t in todos && t.id != id
    {
      FilterMembership(todos, (t: Todo) => t.id != id, t);
    }
    FilterLength(todos, (t: Todo) => t.id != id);
    CountComplement(todos, (t: Todo) => t.id == id, (t: Todo) => t.id != id);
  }

  /** Deleting an id that is not in the list changes nothing. */
  lemma DeleteAbsentNoOp(todos: seq<Todo>, id: int)
    requires IndexOfId(todos, id) == -1
    ensures Deleted(todos, id) == todos
  {
    FilterKeepsAll(todos, (t: Todo) => t.id != id);
  }

  /** Deleting twice is deleting once. */
  lemma DeleteIdempotent(todos: seq<Todo>, id: int)
    ensures Deleted(Deleted(todos, id), id) == Deleted(todos, id)
  {
    FilterIdempotent(todos, (t: Todo) => t.id != id);
  }

  /** Clearing keeps exactly the active records, in their original order. */
  lemma ClearedKeepsActive(todos: seq<Todo>)
    ensures IsSubsequence(Cleared(todos), todos)
    ensures forall t :: t in Cleared(todos) <==> t in todos && !t.completed
    ensures |Cleared(todos)| == Count(todos, IsActive)
  {
    FilterIsSubsequence(todos, IsActive);
    forall t
      ensures t in Cleared(todos) <==> t in todos && !t.completed
    {
      FilterMembership(todos, IsActive, t);
    }
    FilterLength(todos, IsActive);
  }

  /** With nothing completed, clearing changes nothing. */
  lemma ClearNoneCompletedNoOp(todos: seq<Todo>)
    requires forall k :: 0 <= k < |todos| ==> !todos[k].completed
    ensures Cleared(todos) == todos
  {
    FilterKeepsAll(todos, IsActive);
  }

  /** Clearing twice is clearing once. */
  lemma ClearIdempotent(todos: seq<Todo>)
    ensures Cleared(Cleared(todos)) == Cleared(todos)
  {
    FilterIdempotent(todos, IsActive);
  }

  /** While the clock never runs backwards between calls, the ids of one
      session strictly increase, so they are pairwise distinct. */
  lemma {:induction false} AssignedIdsIncrease(clocks: seq<int>)
    requires forall k :: 0 < k < |clocks| ==> clocks[k - 1] <= clocks[k]
    ensures forall i, j :: 0 <= i < j < |clocks| ==> AssignedIds(clocks)[i] < AssignedIds(clocks)[j]
  {
    if |clocks| > 1 {
      var front := clocks[..|clocks| - 1];
      AssignedIdsIncrease(front);
      var ids := AssignedIds(clocks);
      forall i, j | 0 <= i < j < |clocks|
        ensures ids[i] < ids[j]
      {
        if j < |clocks| - 1 {
          assert ids[i] == AssignedIds(front)[i] && ids[j] == AssignedIds(front)[j];
        } else if i < j - 1 {
          assert ids[i] == AssignedIds(front)[i] && ids[j - 1] == AssignedIds(front)[j - 1];
        }
      }
    }
  }

  class TodoService {
    var todos: seq<Todo>
    var idCounter: nat
    const storage: LocalStorage
    /** The clock readings `addTodo` has used since construction. */
    ghost var clocks: seq<int>

    /** The storage slot holds a list and mirrors this one, and the counter
        counts the adds. */
    ghost predicate Valid()
      reads this, storage
    {
      && (TODOS_KEY in storage.slots ==> storage.slots[TODOS_KEY].TodoList?)
      && StoredTodos(storage.slots) == todos
      && idCounter == |clocks|
    }

    /** The service starts from whatever list the slot holds. */
    constructor (storage: LocalStorage)
      requires TODOS_KEY in storage.slots ==> storage.slots[TODOS_KEY].TodoList?
      ensures this.storage == storage && Valid()
      ensures todos == StoredTodos(storage.slots)
      ensures idCounter == 0 && clocks == []
    {
      this.storage := storage;
      todos := [];
      idCounter := 0;
      clocks := [];
      new;
      LoadTodos();
    }

    /** `loadTodos`: take the stored list when there is one. */
    method LoadTodos()
      requires TODOS_KEY in storage.slots ==> storage.slots[TODOS_KEY].TodoList?
      modifies this`todos
      ensures todos == if TODOS_KEY in storage.slots then storage.slots[TODOS_KEY].todos else old(todos)
    {
      if TODOS_KEY in storage.slots {
        todos := storage.slots[TODOS_KEY].todos;
      }
    }

    /** `saveTodos`: write the whole list to the slot. */
    method SaveTodos()
      modifies storage
      ensures storage.slots == old(storage.slots)[TODOS_KEY := TodoList(todos)]
    {
      storage.SetItem(TODOS_KEY, TodoList(todos));
    }

    /** `addTodo(text)` at clock reading `now`: append one active record whose
        id is `now` plus the counter, then bump the counter. */
    method AddTodo(text: string, now: int)
      requires Valid()
      modifies this, storage
      ensures Valid()
      ensures todos == old(todos) + [Todo(now + old(idCounter), text, false)]
      ensures clocks == old(clocks) + [now]
      ensures todos[|todos| - 1].id == AssignedIds(clocks)[|clocks| - 1]
      ensures storage.slots == old(storage.slots)[TODOS_KEY := TodoList(todos)]
    {
      var id := now + idCounter;
      idCounter := idCounter + 1;
      clocks := clocks + [now];
      todos := todos + [Todo(id, text, false)];
      SaveTodos();
    }

    /** `toggleTodo(id)`: flip the first record with that id in place and
        save; when no record has it, change nothing and write nothing. */
    method ToggleTodo(id: int)
      requires Valid()
      modifies this, storage
      ensures Valid()
      ensures todos == Toggled(old(todos), id)
      ensures idCounter == old(idCounter) && clocks == old(clocks)
      ensures storage.slots == if IndexOfId(old(todos), id) == -1 then old(storage.slots)
                               else old(storage.slots)[TODOS_KEY := TodoList(todos)]
    {
      var i := 0;
      while i < |todos| && todos[i].id != id
        invariant 0 <= i <= |todos|
        invariant forall k :: 0 <= k < i ==> todos[k].id != id
      {
        i := i + 1;
      }
      if i < |todos| {
        assert i == IndexOfId(todos, id);
        todos := todos[i := todos[i].(completed := !todos[i].completed)];
        SaveTodos();
      }
    }

    /** `deleteTodo(id)`: keep the records with another id and save, also
        when nothing was removed. */
    method DeleteTodo(id: int)
      requires Valid()
      modifies this, storage
      ensures Valid()
      ensures todos == Deleted(old(todos), id)
      ensures idCounter == old(idCounter) && clocks == old(clocks)
      ensures storage.slots == old(storage.slots)[TODOS_KEY := TodoList(todos)]
    {
      todos := Filter(todos, (t: Todo) => t.id != id);
      SaveTodos();
    }

    /** `clearCompleted()`: keep the active records and save. */
    method ClearCompleted()
      requires Valid()
      modifies this, storage
      ensures Valid()
      ensures todos == Cleared(old(todos))
      ensures idCounter == old(idCounter) && clocks == old(clocks)
      ensures storage.slots == old(storage.slots)[TODOS_KEY := TodoList(todos)]
    {
      todos := Filter(todos, IsActive);
      SaveTodos();
    }
  }

  /** Building a second service over the same storage reproduces the list the
      first one holds: what is saved is what is loaded. */
  method Reload(service: TodoService) returns (reloaded: TodoService)
    requires service.Valid()
    ensures reloaded.todos == service.todos
    ensures reloaded.storage == service.storage
  {
    reloaded := new TodoService(service.storage);
  }
}

=== FILE: todo_view.dfy ===
/** The list page (src/app/components/todo/todo.ts): search and multi-select
    filtering, the selection toggles, quick add, the counters and the state of
    the edit dialog. Signals are plain fields; the effect that re-runs the
    filter is the explicit `ApplyFilters` call in the constructor. */
module TodoView {
  import opened Models
  import opened Seqs
  import opened Text
  import opened StoreApi

  /** The category filter: an empty selection lets everything through. */
  predicate CategoryPass(t: TodoItem, cats: seq<string>) {
    |cats| == 0 || t.category in cats
  }

  /** The priority filter, on the priority's string value. */
  predicate PriorityPass(t: TodoItem, pris: seq<string>) {
    |pris| == 0 || t.priority.value.Value() in pris
  }

  /** The search filter: a term that trims to nothing lets everything
      through; otherwise the lower-cased text must contain the lower-cased
      term, which is not trimmed. */
  predicate SearchPass(t: TodoItem, term: string) {
    Trim(term) == [] || Contains(ToLower(t.text), ToLower(term))
  }

  predicate Passes(t: TodoItem, cats: seq<string>, pris: seq<string>, term: string) {
    CategoryPass(t, cats) && PriorityPass(t, pris) && SearchPass(t, term)
  }

  /** The list the page shows. */
  function Visible(todos: seq<TodoItem>, cats: seq<string>, pris: seq<string>, term: string): seq<TodoItem> {
    Filter(todos, (t: TodoItem) => Passes(t, cats, pris, term))
  }

  /** The filter is an order-preserving selection that keeps an item exactly
      when all three filters pass it. */
  lemma VisibleIsConjunctiveSelection(todos: seq<TodoItem>, cats: seq<string>, pris: seq<string>, term: string)
    ensures IsSubsequence(Visible(todos, cats, pris, term), todos)
    ensures forall t :: t in Visible(todos, cats, pris, term) <==>
      && t in todos
      && (|cats| == 0 || t.category in cats)
      && (|pris| == 0 || t.priority.value.Value() in pris)
      && (Trim(term) == [] || Contains(ToLower(t.text), ToLower(term)))
  {
    FilterIsSubsequence(todos, (t: TodoItem) => Passes(t, cats, pris, term));
    forall t
      ensures t in Visible(todos, cats, pris, term) <==> t in todos && Passes(t, cats, pris, term)
    {
      FilterMembership(todos, (t: TodoItem) => Passes(t, cats, pris, term), t);
    }
  }

  /** With no selection and a blank search term the page shows the whole
      list. */
  lemma VisibleUnfiltered(todos: seq<TodoItem>, term: string)
    requires AllWhitespace(term)
    ensures Visible(todos, [], [], term) == todos
  {
    TrimEmptyIffBlank(term);
    FilterKeepsAll(todos, (t: TodoItem) => Passes(t, [], [], term));
  }

  /** One stage of `applyFilters`: a filter applied only when its selection
      is in use, on top of the stages before it. */
  lemma FilterStage(s: seq<TodoItem>, acc: seq<TodoItem>, apply: bool,
                    p: TodoItem -> bool, q: TodoItem -> bool, r: TodoItem -> bool)
    requires acc == Filter(s, p)
    requires forall k :: 0 <= k < |s| ==> r(s[k]) == (p(s[k]) && (!apply || q(s[k])))
    ensures (if apply then Filter(acc, q) else acc) == Filter(s, r)
  {
    if apply {
      FilterFusion(s, p, q, r);
    } else {
      FilterCongruent(s, p, r);
    }
  }

  /** The selection after picking `name`: `'All'` clears it; otherwise the
      first occurrence of `name` is removed, or `name` is appended. */
  function ToggleSelection(sel: seq<string>, name: string): (r: seq<string>)
    ensures name == "All" ==> r == []
    ensures name != "All" && name !in sel ==> r == sel + [name]
    ensures name != "All" && name in sel ==> |r| == |sel| - 1 && multiset(r) == multiset(sel) - multiset{name}
  {
    if name == "All" then []
    else
      var i := IndexOf(sel, name);
      if i >= 0 then
        assert sel == sel[..i] + [sel[i]] + sel[i + 1..];
        sel[..i] + sel[i + 1..]
      else sel + [name]
  }

  predicate NoDuplicates(s: seq<string>) {
    forall i, j :: 0 <= i < j < |s| ==> s[i] != s[j]
  }

  /** Picking a name that is not selected, then picking it again, restores
      the selection. */
  lemma ToggleSelectionTwice(sel: seq<string>, name: string)
    requires name != "All" && name !in sel
    ensures ToggleSelection(ToggleSelection(sel, name), name) == sel
  {
    var once := sel + [name];
    assert IndexOf(once, name) == |sel| by {
      assert once[|sel|] == name && once[..|sel|] == sel;
    }
    assert once[..|sel|] + once[|sel| + 1..] == sel;
  }

  /** Removing position `i` from a duplicate-free selection removes exactly
      the name there. */
  lemma RemoveAtFacts(sel: seq<string>, i: nat)
    requires NoDuplicates(sel) && i < |sel|
    ensures NoDuplicates(sel[..i] + sel[i + 1..])
    ensures forall x :: x in sel[..i] + sel[i + 1..] <==> x in sel && x != sel[i]
  {
    var r := sel[..i] + sel[i + 1..];
    assert forall k :: 0 <= k < |r| ==> r[k] == if k < i then sel[k] else sel[k + 1];
    forall x | x in sel && x != sel[i]
      ensures x in r
    {
      var k :| 0 <= k < |sel| && sel[k] == x;
      if k < i { assert r[k] == x; } else { assert r[k - 1] == x; }
    }
  }

  /** On a duplicate-free selection, picking a name flips its membership,
      leaves every other name as it was, and keeps the selection free of
      duplicates. */
  lemma ToggleSelectionFlips(sel: seq<string>, name: string)
    requires name != "All" && NoDuplicates(sel)
    ensures NoDuplicates(ToggleSelection(sel, name))
    ensures forall x :: x in ToggleSelection(sel, name) <==> (if x == name then name !in sel else x in sel)
  {
    var i := IndexOf(sel, name);
    if i >= 0 {
      RemoveAtFacts(sel, i);
      assert name !in sel[..i] + sel[i + 1..];
    }
  }

  /** `find(t => t.id === id)`: the first item with that id. */
  function FindById(todos: seq<TodoItem>, id: int): (r: Option<TodoItem>)
    ensures r.None? <==> forall k :: 0 <= k < |todos| ==> todos[k].id != id
    ensures r.Some? ==> exists i :: 0 <= i < |todos| && todos[i] == r.value && r.value.id == id
                                    && forall k :: 0 <= k < i ==> todos[k].id != id
  {
    var i := FirstIndex(todos, (t: TodoItem) => t.id == id);
    if i == -1 then None else Some(todos[i])
  }

  /** When ids are unique, looking an item's id up finds that very item. */
  lemma FindByIdFindsItem(todos: seq<TodoItem>, t: TodoItem)
    requires forall i, j :: 0 <= i < j < |todos| ==> todos[i].id != todos[j].id
    requires t in todos
    ensures FindById(todos, t.id) == Some(t)
  {
    var j :| 0 <= j < |todos| && todos[j] == t;
    var i :| 0 <= i < |todos| && todos[i] == FindById(todos, t.id).value && todos[i].id == t.id
             && forall k :: 0 <= k < i ==> todos[k].id != t.id;
    assert i == j;
  }

  /** `getPriorityColor`: an absent or empty value, or one no priority has,
      gives `''`; otherwise the colour of the first priority with that
      value. */
  function PriorityColor(priorities: seq<Priority>, value: Option<string>): (color: string)
    ensures (value.None? || value.value == "") ==> color == ""
    ensures value.Some? && value.value != "" && color != "" ==>
      exists k :: 0 <= k < |priorities| && priorities[k].value.Value() == value.value && priorities[k].coloer == color
    ensures value.Some? && value.value != "" && (exists k :: 0 <= k < |priorities| && priorities[k].value.Value() == value.value) ==>
      exists i :: 0 <= i < |priorities| && priorities[i].value.Value() == value.value && color == priorities[i].coloer
                  && forall k :: 0 <= k < i ==> priorities[k].value.Value() != value.value
  {
    if value.None? || value.value == "" then ""
    else
      var i := FirstIndex(priorities, (p: Priority) => p.value.Value() == value.value);
      if i == -1 then "" else priorities[i].coloer
  }

  /** A value that no priority has gives no colour. */
  lemma PriorityColorUnknown(priorities: seq<Priority>, value: string)
    requires forall k :: 0 <= k < |priorities| ==> priorities[k].value.Value() != value
    ensures PriorityColor(priorities, Some(value)) == ""
  {
    if value != "" {
      assert FirstIndex(priorities, (p: Priority) => p.value.Value() == value) == -1;
    }
  }

  /** A non-empty value that priority `k` is the first to carry gives that
      priority's colour. */
  lemma PriorityColorKnown(priorities: seq<Priority>, k: nat)
    requires k < |priorities| && priorities[k].value.Value() != ""
    requires forall j :: 0 <= j < k ==> priorities[j].value.Value() != priorities[k].value.Value()
    ensures PriorityColor(priorities, Some(priorities[k].value.Value())) == priorities[k].coloer
  {
    var v := priorities[k].value.Value();
    var i :| 0 <= i < |priorities| && priorities[i].value.Value() == v
             && PriorityColor(priorities, Some(v)) == priorities[i].coloer
             && forall j :: 0 <= j < i ==> priorities[j].value.Value() != v;
    assert i == k;
  }

  /** `getCategoryName`: an absent or empty name shows as `''`, any other
      name as itself. */
  function CategoryName(name: Option<string>): (shown: string)
    ensures shown == "" <==> name.None? || name.value == ""
    ensures shown != "" ==> shown == name.value
  {
    if name.None? || name.value == "" then "" else name.value
  }

  /** The category quick add uses: the first category's name, or `'Work'`
      when there is none or it is empty. */
  function DefaultCategory(categories: seq<Category>): string {
    if |categories| > 0 && categories[0].name != "" then categories[0].name else "Work"
  }

  /** The priority quick add uses: the second entry, else the first, else a
      literal Medium priority without colour. */
  function DefaultPriority(priorities: seq<Priority>): Priority {
    if |priorities| > 1 then priorities[1]
    else if |priorities| == 1 then priorities[0]
    else Priority(Medium, "Medium", "")
  }

  predicate IsOpen(t: TodoItem) {
    !t.completed
  }

  predicate IsDone(t: TodoItem) {
    t.completed
  }

  class TodoComponent {
    const service: TodoServiceApi
    var filteredTodos: seq<TodoItem>
    var searchTerm: string
    var selectedCategory: seq<string>
    var selectedPriority: seq<string>
    var editingTodoId: Option<int>
    var showFormDialog: bool
    var categories: seq<Category>
    var priorities: seq<Priority>
    var newTodoText: string

    /** Categories and priorities are read once from the service; the
        filter then runs over the whole list with nothing selected. */
    constructor (service: TodoServiceApi)
      ensures this.service == service
      ensures categories == service.categories && priorities == service.priorities
      ensures searchTerm == "" && selectedCategory == [] && selectedPriority == []
      ensures editingTodoId == None && !showFormDialog && newTodoText == ""
      ensures filteredTodos == service.todos
    {
      this.service := service;
      filteredTodos := [];
      searchTerm := "";
      selectedCategory := [];
      selectedPriority := [];
      editingTodoId := None;
      showFormDialog := false;
      categories := service.categories;
      priorities := service.priorities;
      newTodoText := "";
      new;
      ApplyFilters();
      VisibleUnfiltered(service.todos, "");
    }

    function ActiveTodosCount(): nat
      reads this, service
    {
      Count(service.todos, IsOpen)
    }

    function CompletedTodosCount(): nat
      reads this, service
    {
      Count(service.todos, IsDone)
    }

    function TotalTodosCount(): nat
      reads this, service
    {
      |service.todos|
    }

    /** Every item is either active or completed. */
    lemma CountsAddUp()
      ensures ActiveTodosCount() + CompletedTodosCount() == TotalTodosCount()
    {
      CountComplement(service.todos, IsOpen, IsDone);
    }

    /** `editingTodo`: nothing when no id is set or the id is 0 (a falsy
        id), else the first item with that id, if any. */
    function EditingTodo(): (r: Option<TodoItem>)
      reads this, service
      ensures r.Some? ==> editingTodoId.Some? && editingTodoId.value != 0
                          && r.value.id == editingTodoId.value && r.value in service.todos
      ensures (editingTodoId.Some? && editingTodoId.value != 0
               && exists k :: 0 <= k < |service.todos| && service.todos[k].id == editingTodoId.value) ==> r.Some?
      ensures r.Some? ==> exists i :: 0 <= i < |service.todos| && service.todos[i] == r.value
                                      && forall k :: 0 <= k < i ==> service.todos[k].id != r.value.id
    {
      if editingTodoId.None? || editingTodoId.value == 0 then None
      else FindById(service.todos, editingTodoId.value)
    }

    function GetPriorityColor(value: Option<string>): (color: string)
      reads this
      ensures (value.None? || value.value == "") ==> color == ""
      ensures value.Some? && value.value != "" && color != "" ==>
        exists k :: 0 <= k < |priorities| && priorities[k].value.Value() == value.value && priorities[k].coloer == color
      ensures value.Some? && value.value != "" && (exists k :: 0 <= k < |priorities| && priorities[k].value.Value() == value.value) ==>
        exists i :: 0 <= i < |priorities| && priorities[i].value.Value() == value.value && color == priorities[i].coloer
                    && forall k :: 0 <= k < i ==> priorities[k].value.Value() != value.value
    {
      PriorityColor(priorities, value)
    }

    /** `applyFilters`: the category, priority and search filters in turn,
        each only when in use. */
    method ApplyFilters()
      modifies this`filteredTodos
      ensures filteredTodos == Visible(service.todos, selectedCategory, selectedPriority, searchTerm)
    {
      var todos, cats, pris, term := service.todos, selectedCategory, selectedPriority, searchTerm;
      var filtered := todos;
      FilterKeepsAll(todos, (t: TodoItem) => true);

      var useCats := |cats| > 0;
      if useCats {
        filtered := Filter(filtered, (t: TodoItem) => t.category in cats);
      }
      FilterStage(todos, todos, useCats, (t: TodoItem) => true, (t: TodoItem) => t.category in cats,
                  (t: TodoItem) => CategoryPass(t, cats));

      var usePris := |pris| > 0;
      ghost var before := filtered;
      if usePris {
        filtered := Filter(filtered, (t: TodoItem) => t.priority.value.Value() in pris);
      }
      FilterStage(todos, before, usePris, (t: TodoItem) => CategoryPass(t, cats),
                  (t: TodoItem) => t.priority.value.Value() in pris,
                  (t: TodoItem) => CategoryPass(t, cats) && PriorityPass(t, pris));

      var useSearch := Trim(term) != [];
      var lower := ToLower(term);
      before := filtered;
      if useSearch {
        filtered := Filter(filtered, (t: TodoItem) => Contains(ToLower(t.text), lower));
      }
      FilterStage(todos, before, useSearch, (t: TodoItem) => CategoryPass(t, cats) && PriorityPass(t, pris),
                  (t: TodoItem) => Contains(ToLower(t.text), lower),
                  (t: TodoItem) => Passes(t, cats, pris, term));

      filteredTodos := filtered;
    }

    /** Quick add: a blank text does nothing; otherwise one add request with
        the trimmed text, the default category and priority, no due date, no
        tags and not completed, after which the input is cleared. */
    method AddTodo()
      modifies this`newTodoText, service
      ensures AllWhitespace(old(newTodoText)) ==>
        newTodoText == old(newTodoText) && service.requests == old(service.requests)
      ensures !AllWhitespace(old(newTodoText)) ==>
        && newTodoText == ""
        && service.requests == old(service.requests) + [AddRequest(TodoDraft(
             Trim(old(newTodoText)), DefaultCategory(categories), Some(DefaultPriority(priorities)), None, [], false))]
        && Trim(old(newTodoText)) != []
      ensures service.categories == old(service.categories) && service.priorities == old(service.priorities)
    {
      TrimEmptyIffBlank(newTodoText);
      if Trim(newTodoText) == [] {
        return;
      }
      var text := Trim(newTodoText);
      service.AddTodo(TodoDraft(text, DefaultCategory(categories), Some(DefaultPriority(priorities)), None, [], false));
      newTodoText := "";
    }

    method ToggleTodo(id: int)
      modifies service
      ensures service.requests == old(service.requests) + [ToggleRequest(id)]
      ensures service.categories == old(service.categories) && service.priorities == old(service.priorities)
    {
      service.ToggleTodo(id);
    }

    method DeleteTodo(id: int)
      modifies service
      ensures service.requests == old(service.requests) + [DeleteRequest(id)]
      ensures service.categories == old(service.categories) && service.priorities == old(service.priorities)
    {
      service.DeleteTodo(id);
    }

    method ClearCompleted()
      modifies service
      ensures service.requests == old(service.requests) + [ClearCompletedRequest]
      ensures service.categories == old(service.categories) && service.priorities == old(service.priorities)
    {
      service.ClearCompleted();
    }

    /** `onCategorySelected`: update the category selection, then refilter. */
    method OnCategorySelected(categoryName: string)
      modifies this`selectedCategory, this`filteredTodos
      ensures selectedCategory == ToggleSelection(old(selectedCategory), categoryName)
      ensures filteredTodos == Visible(service.todos, selectedCategory, selectedPriority, searchTerm)
    {
      if categoryName == "All" {
        selectedCategory := [];
        ApplyFilters();
        return;
      }
      var current := selectedCategory;
      var idx := IndexOf(current, categoryName);
      if idx >= 0 {
        current := current[..idx] + current[idx + 1..];
      } else {
        current := current + [categoryName];
      }
      selectedCategory := current;
      ApplyFilters();
    }

    /** `onPrioritySelected`: the same rules for the priority selection. */
    method OnPrioritySelected(priority: string)
      modifies this`selectedPriority, this`filteredTodos
      ensures selectedPriority == ToggleSelection(old(selectedPriority), priority)
      ensures filteredTodos == Visible(service.todos, selectedCategory, selectedPriority, searchTerm)
    {
      if priority == "All" {
        selectedPriority := [];
        ApplyFilters();
        return;
      }
      var current := selectedPriority;
      var idx := IndexOf(current, priority);
      if idx >= 0 {
        current := current[..idx] + current[idx + 1..];
      } else {
        current := current + [priority];
      }
      selectedPriority := current;
      ApplyFilters();
    }

    method OnSearchChange(term: string)
      modifies this`searchTerm
      ensures searchTerm == term
    {
      searchTerm := term;
    }

    /** After the form reports a submit: refilter and close the dialog. */
    method OnFormSubmitted()
      modifies this`filteredTodos, this`showFormDialog, this`editingTodoId
      ensures filteredTodos == Visible(service.todos, selectedCategory, selectedPriority, searchTerm)
      ensures !showFormDialog && editingTodoId == None
    {
      ApplyFilters();
      CloseFormDialog();
    }

    method EditTodo(todo: TodoItem)
      modifies this`showFormDialog, this`editingTodoId
      ensures showFormDialog && editingTodoId == Some(todo.id)
    {
      editingTodoId := Some(todo.id);
      showFormDialog := true;
    }

    method OpenAddTodoDialog()
      modifies this`showFormDialog, this`editingTodoId
      ensures showFormDialog && editingTodoId == None
    {
      editingTodoId := None;
      showFormDialog := true;
    }

    method CloseFormDialog()
      modifies this`showFormDialog, this`editingTodoId
      ensures !showFormDialog && editingTodoId == None
    {
      showFormDialog := false;
      editingTodoId := None;
    }

    method CancelEdit()
      modifies this`showFormDialog, this`editingTodoId
      ensures !showFormDialog && editingTodoId == None
    {
      CloseFormDialog();
    }
  }
}
